=== FILE: README.md ===
# Task manager core, modelled in Dafny

A model of the core of a multi-user task manager written as a Next.js
application. Users sign in with a JSON Web Token, carried as a `Bearer`
header or as a `token` cookie. Each user keeps a list of tasks with a
title, an optional description, a status (`todo`, `in-progress`, `done`),
an optional due date and an owner. The model covers:

- **Task record** (`TaskModel`, `src/models/Task.ts`):
  - the status names;
  - the `trim` setters and default status;
  - the validators run on save.
- **Authentication helpers** (`AuthLib`, `src/lib/auth.ts`):
  - the claims a token carries;
  - the exception-free verification wrapper;
  - token lookup in a request, header first and then cookie;
  - the `Set-Cookie` texts that install and clear the token, proved to read back as the intended name, value and attributes under a simplified reader in the style of section 5.2 of RFC 6265 (see `AuthLib.ParseSetCookie` under "## Left out" for where it differs from the RFC).
- **Task collection endpoint** (`TasksRoute`, `src/app/api/tasks/route.ts`):
  - `GET` lists the caller's tasks, with an optional status filter and a sort;
  - `POST` validates a body and creates a task.
- **Route guard** (`Middleware`, `src/middleware.ts`): public pages pass; other pages need a verified token, whose identity is forwarded in request headers.
- **Client state** (`TasksSlice`, `AuthSlice`, `src/store/slices/*.ts`): the client-side task cache and session, as pure reducers over actions. Some task actions are fed by socket events.
- **Task form** (`TaskForm`, `src/components/TaskForm.tsx`): its prefill, validation and submission.

`Common` holds the vocabulary the modules share:

- `Option`;
- JavaScript's `||` on strings;
- `String.prototype.trim` over the ECMAScript white-space set;
- subsequences.

Everything outside the program is a parameter:

- **The JWT library's `verify`** is a function `string -> JwtResult`: a decoded payload or a thrown error.
- **The document store** is three booleans: whether it connects, whether the query runs and whether the save succeeds. The stored tasks are a sequence.
- **The clock** is a predicate `isPast` on date text.
- **The id and timestamps of a new document** are arguments.

A `task_created` socket event prepends the task even when
a task with that id is already cached, so a client that created the task and
also receives the broadcast holds it twice (`TasksSlice.PrependDoesNotDeduplicate`).

## Model

| member | source | states |
|---|---|---|
| Common.OrElse | src/store/slices/tasksSlice.ts:191 | `payload \|\| fallback` yields the payload exactly when it is present and non-empty, the fallback otherwise |
| Common.Trim | src/app/api/tasks/route.ts:89 | the trimmed text has no white space at either end, consists of characters of the input, is no longer, and is empty exactly when the input is all white space |
| Common.TrimSurrounded | src/app/api/tasks/route.ts:112-113 | trimming removes exactly the blank margins: blank + m + blank trims to m for any trimmed m |
| Common.TrimIdempotent | src/models/Task.ts:20 | the schema's trim setter applied to an already-trimmed title changes nothing |
| TaskModel.ParseStatus | src/models/Task.ts:28-32 | exactly the three enum names are statuses, and each parses to the status with that name |
| TaskModel.StatusRoundTrip | src/models/Task.ts:3 | every status survives name-then-parse |
| TaskModel.SchemaAccepts | src/models/Task.ts:17-40 | the schema's validators: a title of 1 to 100 characters, a description of at most 500, and an owner that is `ObjectId` text (24 hexadecimal digits) |
| TaskModel.NewDocument | src/models/Task.ts:17-45 | a new document's title is the trimmed title and its description the trimmed description (absent when none was given); its status is the default `todo`; the due date and owner are the given ones; both timestamps are the creation time; its title is empty exactly when the given title was blank |
| TaskModel.ValidationError | src/models/Task.ts:17-40 | the save is refused exactly when title, description length or owner break the schema, with the first failing validator's message, each exactly under its condition: `Title is required` for an empty title, the title-length message for more than 100 characters, the description-length message for a fitting title and a description over 500, the owner-required message for fitting fields and an empty owner, the cast failure for fitting fields and a non-empty owner that is not `ObjectId` text |
| TaskModel.SavedDocumentValid | src/models/Task.ts:15-45 | every document built by the setters and accepted on save is a valid task with status `todo` |
| TasksSlice.FindIndex | src/store/slices/tasksSlice.ts:165 | the index is -1 exactly when no task has the id, and otherwise is the first position holding it |
| TasksSlice.ReplaceFirst | src/store/slices/tasksSlice.ts:164-169 | the first task with the id is replaced and every other position kept; without such a task the list is unchanged |
| TasksSlice.RemoveById | src/store/slices/tasksSlice.ts:173-175 | no task with the id remains, every other task does, in order, and the list shrinks exactly when the id was present |
| TasksSlice.RemoveKeepsCounts | src/store/slices/tasksSlice.ts:173-175 | the filter keeps every task without the id as many times as it occurred, and no copy of a task with the id |
| TasksSlice.Reduce | src/store/slices/tasksSlice.ts:152-257 | loading is set by pending cases and cleared by outcomes; errors only come from rejections and are never empty; only list-carrying actions change the list, and only a fetch-all grows it by more than one |
| TasksSlice.ClearErrorEffect | src/store/slices/tasksSlice.ts:153-155 | `clearError` empties the error and keeps list, selection and loading flag |
| TasksSlice.SetSelectedEffect | src/store/slices/tasksSlice.ts:161-163 | `setSelectedTask` stores its payload, a task or none, and keeps everything else |
| TasksSlice.FulfilledSettles | src/store/slices/tasksSlice.ts:184-253 | every fulfilled request stops loading and clears the error |
| TasksSlice.ClearTasksEffect | src/store/slices/tasksSlice.ts:156-160 | clearing empties list, selection and error but leaves the loading flag |
| TasksSlice.PrependEffect | src/store/slices/tasksSlice.ts:170-202 | a socket create and a fulfilled create both put the task in front of the whole old list and keep the selection; the socket event changes nothing else, the fulfilled create stops loading and clears the error |
| TasksSlice.PrependDoesNotDeduplicate | src/store/slices/tasksSlice.ts:170-172 | a created task whose id is already cached is prepended anyway, leaving the id twice (for the socket and the REST outcome alike) |
| TasksSlice.SocketUpdateEffect | src/store/slices/tasksSlice.ts:164-169 | a socket update replaces the first task with the id and touches nothing else in the state |
| TasksSlice.SocketUpdateAbsent | src/store/slices/tasksSlice.ts:166 | a socket update for an uncached id leaves the state unchanged |
| TasksSlice.RemovalEffect | src/store/slices/tasksSlice.ts:232-239 | a socket or fulfilled delete removes every task with the id and keeps the rest in order with the same number of copies of each; the socket delete touches nothing else; the fulfilled delete stops loading, clears the error, unselects the task with that id and keeps any other selection or none |
| TasksSlice.PendingEffect | src/store/slices/tasksSlice.ts:180-183 | every pending case starts loading, clears the error, keeps list and selection |
| TasksSlice.RejectedEffect | src/store/slices/tasksSlice.ts:189-192 | every rejection stops loading and records the payload, or the request's default message when the payload is absent or empty |
| TasksSlice.UpdateFulfilledEffect | src/store/slices/tasksSlice.ts:212-222 | a fulfilled update changes the list as the socket update does (the first task with the id replaced, every other position kept, nothing changed without one), refreshes the selection exactly when it has the same id, stops loading and clears the error |
| TasksSlice.FetchEffects | src/store/slices/tasksSlice.ts:184-253 | a fetch-all replaces the list wholesale and keeps the selection; a fetch-by-id only sets the selection; both stop loading and clear the error |
| TasksSlice.DistinctIdsPreserved | src/store/slices/tasksSlice.ts:152-257 | ids stay unique under every action except a prepend of a cached id and a fetch-all with a repeated id |
| TasksSlice.RemoveIdempotent | src/store/slices/tasksSlice.ts:173-175 | replaying a removal is harmless |
| TasksSlice.RemoveAbsent | src/store/slices/tasksSlice.ts:173-175 | removing an uncached id changes nothing |
| TasksSlice.ReplaceIdempotent | src/store/slices/tasksSlice.ts:164-169 | replaying the same socket update is harmless |
| TasksSlice.AddThenRemove | src/store/slices/tasksSlice.ts:170-175 | a create event followed by a delete event for its id leaves the list as the delete alone would |
| TasksSlice.ShrinkingRunKeepsIds | src/store/slices/tasksSlice.ts:152-257 | over any run without fetch-all or prepends, every cached task has an id that was cached at the start |
| TasksSlice.StepKeepsIds | src/store/slices/tasksSlice.ts:153-175 | one such action introduces no new id |
| AuthSlice.Reduce | src/store/slices/authSlice.ts:127-223 | only a successful sign-in or user load authenticates; only a sign-in installs a new token; loading is set by pending cases and cleared by every outcome; errors only come from rejections |
| AuthSlice.ResetsAreInitial | src/store/slices/authSlice.ts:131-145 | `clearAuth` and `forceLogout` return to the initial state from any state |
| AuthSlice.ClearErrorEffect | src/store/slices/authSlice.ts:128-130 | `clearError` changes only the error |
| AuthSlice.SignInEffect | src/store/slices/authSlice.ts:154-183 | login and registration success install the returned user and token, authenticate, and agree with each other |
| AuthSlice.SignInRejectedKeepsCredentials | src/store/slices/authSlice.ts:167-203 | a failed sign-in, registration or user load drops the authenticated flag and stops loading but keeps the previous user and token, recording the payload or the request's default message |
| AuthSlice.LogoutAlwaysSignsOut | src/store/slices/authSlice.ts:209-223 | logout signs out whether the request succeeds or fails; failure records the payload, or `Logout failed` when it is absent or empty |
| AuthSlice.PendingErrorAsymmetry | src/store/slices/authSlice.ts:150-208 | every pending case starts loading and keeps user, token and authenticated flag; loading the user is the one that keeps the old error, every other clears it |
| AuthSlice.LoadUserEffect | src/store/slices/authSlice.ts:193-198 | a loaded user authenticates without touching the token |
| AuthSlice.StepKeepsUser | src/store/slices/authSlice.ts:147-223 | every action keeps "authenticated implies a user is held" |
| AuthSlice.ReachableHasUser | src/store/slices/authSlice.ts:20-26 | every state reachable from the initial one holds a user whenever it is authenticated |
| AuthSlice.AuthenticatedWithoutToken | src/store/slices/authSlice.ts:193-198 | the session invariant does not extend to the token: loading the user from the initial state authenticates with no token |
| AuthLib.TokenClaims | src/lib/auth.ts:13-23 | the signed claims are exactly the user's id, email and name, expiring seven days after issue |
| AuthLib.TokenIgnoresPassword | src/lib/auth.ts:14-18 | the password hash never reaches the token |
| AuthLib.VerifyToken | src/lib/auth.ts:25-31 | a payload exactly when the library decodes the token, and then the library's payload |
| AuthLib.VerifyHidesReason | src/lib/auth.ts:28-30 | every failure reason becomes the same absent payload |
| AuthLib.TokenFromRequest | src/lib/auth.ts:33-47 | a `Bearer ` header wins and yields the rest of the header; otherwise a non-empty `token` cookie; otherwise nothing |
| AuthLib.BearerRoundTrip | src/lib/auth.ts:35-38 | a `Bearer t` header yields exactly t, whatever cookies come along |
| AuthLib.EmptyBearerShadowsCookie | src/lib/auth.ts:36-44 | a bare `Bearer ` header yields the empty token, hiding any cookie |
| AuthLib.LowerCaseBearerIgnored | src/lib/auth.ts:36 | the prefix test is case-sensitive: `bearer t` falls through to the cookie |
| AuthLib.Authenticate | src/app/api/tasks/route.ts:10-26 | no token or an empty one is `NoToken`; authenticated exactly when the library decodes the token, with its payload |
| AuthLib.SetTokenCookie | src/lib/auth.ts:49-53 | the installing `Set-Cookie` text; what it says is stated by `AuthLib.SetTokenCookieReadsBack` |
| AuthLib.ClearTokenCookie | src/lib/auth.ts:55-57 | the clearing `Set-Cookie` text; what it says is stated by `AuthLib.ClearTokenCookieReadsBack` |
| AuthLib.SetTokenCookieReadsBack | src/lib/auth.ts:49-53 | the installing cookie parses back as name `token`, the token, and `HttpOnly`, `Path=/`, `Max-Age` of the lifetime, `SameSite=Strict`, and `Secure` exactly in production |
| AuthLib.TokenCookieReadsBack | src/lib/auth.ts:49-53 | the same read-back for any decimal `Max-Age` value |
| AuthLib.MaxAgeText | src/lib/auth.ts:50 | the interpolated lifetime is the text `604800` |
| AuthLib.ClearTokenCookieReadsBack | src/lib/auth.ts:55-57 | the clearing cookie parses back as an empty `token` with `Max-Age=0` and the same other attributes, without `Secure` |
| AuthLib.CookieLifetimeMatchesToken | src/lib/auth.ts:20-52 | the cookie's `Max-Age` equals the signed token's lifetime |
| TasksRoute.BuildQuery | src/app/api/tasks/route.ts:35-38 | the query is always scoped to the caller and filters by status exactly when the parameter names one of the three statuses |
| TasksRoute.BuildSort | src/app/api/tasks/route.ts:31-42 | the field defaults to `createdAt`; descending exactly when `sortOrder` is `desc`, empty or missing |
| TasksRoute.Matches | src/app/api/tasks/route.ts:35-44 | the filter `find` applies: the caller's tasks, with the asked-for status when there is one |
| TasksRoute.Select | src/app/api/tasks/route.ts:44-46 | the listed tasks are exactly the stored ones matching the query, in store order |
| TasksRoute.Get | src/app/api/tasks/route.ts:6-62 | 200 exactly when connected, authenticated, the query runs and the caller id is `ObjectId` text; the listing carries the built query and sort and exactly the stored tasks the query selects, all of them the caller's |
| TasksRoute.TrimmedDescription | src/app/api/tasks/route.ts:113 | absent or null stays absent, a string is trimmed, anything else throws |
| TasksRoute.DueDate | src/app/api/tasks/route.ts:114 | a due date is kept exactly when it is a non-empty text |
| TasksRoute.Refusal | src/app/api/tasks/route.ts:89-113 | a body is refused exactly when it is not acceptable (non-blank string title of at most 100 characters, description absent, null or a string of at most 500); `Title is required` exactly for a falsy or blank string title, the title-length message exactly for a longer non-blank string title, the description message exactly when the title passes and the description is truthy with a length over 500, and 500 exactly when `trim` is called on a title or description that is not a string |
| TasksRoute.Document | src/app/api/tasks/route.ts:111-116 | the document has the trimmed fields, the due date, the caller as owner, status `todo`; the schema accepts it exactly when the owner is `ObjectId` text |
| TasksRoute.Create | src/app/api/tasks/route.ts:86-126 | 201 exactly for an acceptable body, an `ObjectId` owner and a successful save, returning a valid task carrying the trimmed title and description |
| TasksRoute.Post | src/app/api/tasks/route.ts:64-134 | a failed connection is a 500; once the caller is authenticated, an unreadable body is a 500 and any other is answered as `Create` answers it for the caller; 201 exactly for an acceptable body, an `ObjectId` caller id and a successful save, the created task owned by the caller; a 400 is the refusal of the body |
| TasksRoute.AuthGateFirst | src/app/api/tasks/route.ts:10-26 | once connected, an unauthenticated request is a 401 with the matching message whatever its query or body |
| TasksRoute.UnauthorizedMeansRefused | src/app/api/tasks/route.ts:68-84 | a 401 from either handler means exactly that the gate refused |
| TasksRoute.ListingIsOwnerScoped | src/app/api/tasks/route.ts:35-46 | every listed task is a stored task of the caller, of the asked-for status when a valid one is named; every stored task of the caller with the named status is listed, and without a filter every stored task of the caller |
| TasksRoute.ValidationOrder | src/app/api/tasks/route.ts:89-118 | the first failing check decides the response: each of the three messages exactly under the same conditions as in `Refusal`, so a missing title hides overlong fields and an overlong title hides the description; a 500 exactly for a throwing `trim`, or an acceptable body with an owner that is not `ObjectId` text or a failed save |
| TasksRoute.ObjectLengthCounts | src/app/api/tasks/route.ts:103-113 | an object description with a `length` member of 501 gets the description message, and one with 500 passes the length check and then fails in `trim` with a 500 |
| TasksRoute.UntrimmedTitleLengthCounts | src/app/api/tasks/route.ts:96-101 | the title length is checked before trimming: 100 letters and a space are refused though the trimmed title fits |
| TasksRoute.SchemaOnlyRefusesOwner | src/app/api/tasks/route.ts:110-132 | after the route's checks the schema refuses exactly an owner that is not `ObjectId` text (such as empty or `u1`), which is a 500 |
| TaskForm.TitleError | src/components/TaskForm.tsx:56-60 | required exactly for a blank title, too long exactly for a non-blank one over 100 characters as typed |
| TaskForm.DescriptionError | src/components/TaskForm.tsx:62-64 | an error exactly when the description exceeds 500 characters |
| TaskForm.DueDateError | src/components/TaskForm.tsx:66-68 | an error exactly for a filled-in date in the past |
| TaskForm.ValidateForm | src/components/TaskForm.tsx:53-72 | an entry per failing field with its message, and no other entries |
| TaskForm.HandleSubmit | src/components/TaskForm.tsx:74-86 | submits exactly when the error map is empty; the submission carries the trimmed title, the trimmed description or none when blank, the due date or none when empty |
| TaskForm.DatePart | src/components/TaskForm.tsx:41 | the longest prefix before the first `T` |
| TaskForm.Prefill | src/components/TaskForm.tsx:36-51 | opening clears the errors and fills the fields from the task, or empties them; a task's non-empty due date becomes its calendar-date part, an absent or empty one the empty field |
| TaskForm.NewFormRefused | src/components/TaskForm.tsx:43-60 | a freshly opened empty form is refused with exactly a title-required error |
| TaskForm.PrefillThenSubmit | src/components/TaskForm.tsx:36-86 | opening a stored task and submitting it unchanged sends its own title and description and the calendar date of its due date |
| TaskForm.SubmitUnchanged | src/components/TaskForm.tsx:74-86 | already trimmed fields within bounds are submitted as they stand |
| TaskForm.RequestBody | src/components/TaskForm.tsx:81-85 | fields left undefined are absent from the request body; present ones are strings |
| TaskForm.SubmissionAccepted | src/components/TaskForm.tsx:53-86 | whatever the form submits, the create endpoint accepts for an `ObjectId` owner and a successful save, storing the submitted title, description and due date |
| Middleware.StripHttpWhitespace | src/middleware.ts:35-37 | the normalised value has no HTTP white space at either end, consists of characters of the value, is no longer, and equals the value when it had none |
| Middleware.HeaderValue | src/middleware.ts:35-37 | `Headers.set` stores a value exactly when it is a `ByteString` whose stripped form has no NUL, LF or CR, and then stores the stripped form |
| Middleware.CleanValueStoredAsIs | src/middleware.ts:35-37 | a one-byte, unpadded value without forbidden bytes is stored as it is |
| Middleware.WideCharacterRefused | src/middleware.ts:35-37 | a character above U+00FF anywhere in the value makes `Headers.set` throw |
| Middleware.PaddedValueStripped | src/middleware.ts:35-37 | a clean value with a space on each side is stored without them |
| Middleware.WideNameRefused | src/middleware.ts:37 | a user name beginning with `Ł` cannot be forwarded |
| Middleware.WithIdentity | src/middleware.ts:34-37 | the headers are built exactly when all three identity fields can be stored; then the three identity headers hold the stripped payload fields, and every other header is kept |
| Middleware.Guard | src/middleware.ts:5-44 | public paths pass untouched; other paths redirect to `/login` exactly when not authenticated; an authenticated request fails exactly when an identity field cannot be stored in a header, and otherwise is forwarded with the identity headers |
| Middleware.PublicIgnoresToken | src/middleware.ts:9-15 | public paths are decided without consulting the token verifier |
| Middleware.RedirectSettles | src/middleware.ts:18-31 | the redirect target is public, so the guard never redirects twice |
| Middleware.IdentityNotSpoofable | src/middleware.ts:33-43 | a client-sent `x-user-id` is overwritten by the stripped user id of the verified token |
| Middleware.ForwardedRequestSameIdentity | src/middleware.ts:39-43 | the forwarded request authenticates to the same identity |
| Middleware.GuardAgreesWithListing | src/middleware.ts:17-37 | on a guarded path the guard redirects exactly the requests the listing answers with a 401, forwards the others whose identity fits in headers and fails on the rest; when the listing is served, the forwarded `x-user-id` is exactly the owner it is scoped to |

## Left out

- The request thunks of both slices (`fetch` calls, JSON decoding, network errors) are not modelled. Only the actions they dispatch are, with their payloads as parameters.
- The JWT library's signing and verification (cryptography, expiry checking) are not modelled. Verification is a parameter, and signing is represented by the claims it signs.
- The MongoDB connection, query and save are reduced to success flags. A `dueDate` that cannot be cast to a date fails the save, and is covered by that flag. The `ObjectId` cast of the owner is modelled explicitly.
- TaskModel.IsObjectIdText: upper-case hexadecimal digits are accepted, as the cast accepts them, but the owner text is then kept as given rather than lower-cased, so such an id matches only stored tasks written with the same case. The 12-character strings some older BSON versions also accept are not modelled.
- TaskModel.ValidationError: the cast failure is reported with a fixed stand-in message; the store's `CastError` text also quotes the value and varies between versions, and the route turns it into the same 500.
- TasksRoute.Select: the sort the store applies to the found tasks is not modelled. The listing carries the sort object built from the query, and the tasks in store order.
- TaskModel.ValidationError: Mongoose reports every failing validator at once. Only the first in schema path order is modelled, because the route turns any of them into the same 500.
- TaskForm.TitleError: JavaScript's `length` counts UTF-16 code units. The model counts characters, which agree outside the astral planes.
- TasksRoute.Refusal: lengths count characters, not UTF-16 code units, as for `TitleError`.
- TaskForm.DescriptionError: lengths count characters, not UTF-16 code units, as for `TitleError`.
- TasksRoute.Refusal: an object description's `length` member counts only when it is an integer. JavaScript compares any other value through `ToNumber`, and the model treats it as having no length.
- AuthLib.ParseSetCookie: it is a simplified reader, not the algorithm of section 5.2 of RFC 6265. An empty first piece is skipped rather than making the whole value ignored. An empty cookie name is accepted. Trimming uses the ECMAScript white-space set rather than the RFC's space and tab. The name and value are not trimmed again on their own.
- Middleware.Guard: when `Headers.set` throws, the guard throws. What Next.js then answers is not modelled; it is the single outcome `Failure`.
- TasksRoute.Json: numbers are integers. A non-integer number, or `NaN` (which is falsy), is not modelled.
- TasksRoute.CreateBody: a `dueDate` that is not a string is not modelled.
- TasksRoute.Post: a primitive JSON body is treated like an object with no fields. A `null` or unparsable body is the `None` case.
- TaskForm.DatePart: `new Date(...).toISOString()` is not modelled. The stored date text is assumed to be already in ISO form.
- TaskForm.DueDateError: date parsing and the clock are reduced to the `isPast` predicate.
- The form's `handleInputChange` per-keystroke editing and all rendering are not modelled.
- The Socket.IO server and client are not modelled. Socket events reach the model only as the three socket actions of the task slice.
- The UI components, analytics and remaining API routes are not part of this model.
- Middleware.Guard: the source's `matcher` configuration is an empty list, so Next.js invokes the guard on no path. The guard is modelled as it would run if attached, and the matcher is left out.
- Middleware.Guard: the redirect target is modelled as the path `/login`, not the absolute URL built from the request.

=== FILE: auth_lib.dfy ===
/**
 * The request authenticator of `src/lib/auth.ts`: finding the bearer token
 * in a request (header first, then cookie), the claims a token carries, the
 * exception-free wrapper around the JWT library's verification, and the
 * `Set-Cookie` strings that install and clear the token.
 *
 * The JWT library is foreign code: its verification is a parameter of type
 * `string -> JwtResult`, and its signing is represented only by the claims
 * it signs.
 */
module AuthLib {
  import opened Common

  /** The claims carried by a token (`JWTPayload`). */
  datatype Payload = Payload(userId: string, email: string, name: string)

  /** A stored user as far as token issuance reads it. */
  datatype UserRecord = UserRecord(id: string, name: string, email: string, passwordHash: string)

  /** What the library signs: the payload plus issue and expiry times, in seconds. */
  datatype Claims = Claims(payload: Payload, issuedAt: int, expiresAt: int)

  /** Why the library's `verify` throws. */
  datatype JwtError = Malformed | Expired | BadSignature

  /** The library's `verify`: the decoded payload, or a thrown error. */
  datatype JwtResult = Decoded(payload: Payload) | Thrown(reason: JwtError)

  /** An incoming request: path, headers (names lower-cased), cookies and query parameters. */
  datatype Request = Request(
    path: string,
    headers: map<string, string>,
    cookies: map<string, string>,
    query: map<string, string>)

  /** `7 * 24 * 60 * 60`: the token's `expiresIn: '7d'` and the cookie's `Max-Age`. */
  const TokenLifetimeSeconds: nat := 7 * 24 * 60 * 60

  const BearerPrefix: string := "Bearer "

  predicate StartsWith(s: string, prefix: string) {
    |prefix| <= |s| && s[..|prefix|] == prefix
  }

  /**
   * `generateToken`: the signed claims are exactly the user's id, email and
   * name (never the password hash), valid for seven days from `now`.
   */
  function TokenClaims(user: UserRecord, now: int): (c: Claims)
    ensures c.payload.userId == user.id && c.payload.email == user.email && c.payload.name == user.name
    ensures c.expiresAt - c.issuedAt == TokenLifetimeSeconds && c.issuedAt == now
  {
    Claims(Payload(user.id, user.email, user.name), now, now + TokenLifetimeSeconds)
  }

  /** The password hash never reaches the token. */
  lemma TokenIgnoresPassword(user: UserRecord, h: string, now: int)
    ensures TokenClaims(user.(passwordHash := h), now) == TokenClaims(user, now)
  {
  }

  /**
   * `verifyToken`: never throws; every failure of the library, whatever its
   * reason, becomes the same absent payload.
   */
  function VerifyToken(jwtVerify: string -> JwtResult, token: string): (r: Option<Payload>)
    ensures r.Some? <==> jwtVerify(token).Decoded?
    ensures r.Some? ==> r.value == jwtVerify(token).payload
  {
    match jwtVerify(token)
    case Decoded(p) => Some(p)
    case Thrown(_) => None
  }

  /** The failure reason never reaches the caller. */
  lemma VerifyHidesReason(v1: string -> JwtResult, v2: string -> JwtResult, token: string)
    requires v1(token).Thrown? && v2(token).Thrown?
    ensures VerifyToken(v1, token) == VerifyToken(v2, token) == None
  {
  }

  /** The `authorization` header when it is present and starts with `Bearer ` (case-sensitive). */
  predicate HasBearerHeader(req: Request) {
    "authorization" in req.headers && StartsWith(req.headers["authorization"], BearerPrefix)
  }

  /**
   * `getTokenFromRequest`: a `Bearer ` header wins and yields what follows
   * the prefix (possibly empty); otherwise a non-empty `token` cookie;
   * otherwise nothing.
   */
  function TokenFromRequest(req: Request): (r: Option<string>)
    ensures HasBearerHeader(req) ==> r.Some? && BearerPrefix + r.value == req.headers["authorization"]
    ensures !HasBearerHeader(req) ==>
              (r.Some? <==> "token" in req.cookies && req.cookies["token"] != "")
    ensures !HasBearerHeader(req) && r.Some? ==> r.value == req.cookies["token"]
  {
    if "authorization" in req.headers && req.headers["authorization"] != ""
       && StartsWith(req.headers["authorization"], BearerPrefix) then
      var h := req.headers["authorization"];
      assert BearerPrefix + h[7..] == h by { assert h == h[..7] + h[7..]; }
      Some(h[7..])
    else if "token" in req.cookies && req.cookies["token"] != "" then
      Some(req.cookies["token"])
    else
      None
  }

  /** Sending `Bearer <t>` always hands back exactly `t`, whatever cookies come along. */
  lemma BearerRoundTrip(req: Request, t: string)
    ensures TokenFromRequest(req.(headers := req.headers["authorization" := BearerPrefix + t])) == Some(t)
  {
    var h := BearerPrefix + t;
    assert h[..|BearerPrefix|] == BearerPrefix;
    var r := TokenFromRequest(req.(headers := req.headers["authorization" := h]));
    assert BearerPrefix + r.value == BearerPrefix + t;
    assert r.value == (BearerPrefix + r.value)[|BearerPrefix|..];
  }

  /**
   * A bare `Bearer ` header yields the empty token and so shadows a cookie
   * that would have authenticated the request.
   */
  lemma EmptyBearerShadowsCookie(req: Request)
    requires "authorization" in req.headers && req.headers["authorization"] == BearerPrefix
    ensures TokenFromRequest(req) == Some("")
  {
  }

  /** The prefix test is case-sensitive: a lower-case `bearer ` header falls through to the cookie. */
  lemma LowerCaseBearerIgnored(req: Request, t: string)
    requires "authorization" in req.headers && req.headers["authorization"] == "bearer " + t
    ensures TokenFromRequest(req) == (if "token" in req.cookies && req.cookies["token"] != ""
                                      then Some(req.cookies["token"]) else None)
  {
    assert req.headers["authorization"][0] == 'b';
  }

  /** The outcome of the authentication gate shared by the task routes and the route guard. */
  datatype AuthOutcome = NoToken | InvalidToken | Authenticated(payload: Payload)

  /**
   * Token lookup followed by verification, as both the route handlers and the
   * route guard run it: a missing or empty token is `NoToken`, a token the
   * library rejects is `InvalidToken`.
   */
  function Authenticate(req: Request, jwtVerify: string -> JwtResult): (r: AuthOutcome)
    ensures r.NoToken? <==> TokenFromRequest(req).None? || TokenFromRequest(req) == Some("")
    ensures r.Authenticated? <==>
              TokenFromRequest(req).Some? && TokenFromRequest(req).value != "" &&
              jwtVerify(TokenFromRequest(req).value).Decoded?
    ensures r.Authenticated? ==> r.payload == jwtVerify(TokenFromRequest(req).value).payload
  {
    var token := TokenFromRequest(req);
    if token.None? || token.value == "" then NoToken
    else
      match VerifyToken(jwtVerify, token.value)
      case None => InvalidToken
      case Some(p) => Authenticated(p)
  }

  // ---------------------------------------------------------------------
  // Cookies

  /** The characters of a compact JWT: base64url digits and dots. */
  predicate IsJwtChar(c: char) {
    ('A' <= c <= 'Z') || ('a' <= c <= 'z') || ('0' <= c <= '9') || c == '-' || c == '_' || c == '.'
  }

  predicate IsJwtText(t: string) {
    forall i :: 0 <= i < |t| ==> IsJwtChar(t[i])
  }

  function DigitChar(d: nat): (c: char)
    requires d < 10
    ensures '0' <= c <= '9'
  {
    ['0', '1', '2', '3', '4', '5', '6', '7', '8', '9'][d]
  }

  /** Decimal rendering of a number, as a template literal interpolates it. */
  function Decimal(n: nat): (r: string)
    ensures |r| > 0
    ensures forall i :: 0 <= i < |r| ==> '0' <= r[i] <= '9'
    decreases n
  {
    if n < 10 then [DigitChar(n)] else Decimal(n / 10) + [DigitChar(n % 10)]
  }

  /** One attribute as the cookie templates write it: `; ` and the attribute. */
  function Attribute(a: string): string {
    "; " + a
  }

  /**
   * The template of `setTokenCookie` with its `Max-Age` value as a
   * parameter: `token=<token>; HttpOnly; Path=/; Max-Age=<maxAge>;
   * SameSite=Strict; ` followed by `Secure;` in production.
   */
  function TokenCookie(token: string, maxAge: string, production: bool): string {
    "token=" + token + Attribute("HttpOnly") + Attribute("Path=/") + Attribute("Max-Age=" + maxAge)
      + Attribute("SameSite=Strict") + "; " + (if production then "Secure;" else "")
  }

  /** `setTokenCookie`: the `Set-Cookie` value installing the token, alive as long as the token. */
  function SetTokenCookie(token: string, production: bool): string {
    TokenCookie(token, Decimal(TokenLifetimeSeconds), production)
  }

  /** `clearTokenCookie`: the `Set-Cookie` value `token=; HttpOnly; Path=/; Max-Age=0; SameSite=Strict;`. */
  function ClearTokenCookie(): string {
    "token=" + Attribute("HttpOnly") + Attribute("Path=/") + Attribute("Max-Age=0")
      + Attribute("SameSite=Strict") + ";"
  }

  /** Splits on every occurrence of `sep`; there is always at least one piece. */
  function Split(s: string, sep: char): (r: seq<string>)
    ensures |r| >= 1
    decreases |s|
  {
    if s == [] then [[]]
    else if s[0] == sep then [[]] + Split(s[1..], sep)
    else
      var rest := Split(s[1..], sep);
      [[s[0]] + rest[0]] + rest[1..]
  }

  /** The trimmed pieces, with the empty ones dropped. */
  function Clean(pieces: seq<string>): (r: seq<string>)
    ensures forall i :: 0 <= i < |r| ==> r[i] != [] && IsTrimmed(r[i])
  {
    if pieces == [] then []
    else
      var p := Trim(pieces[0]);
      if p == [] then Clean(pieces[1..]) else [p] + Clean(pieces[1..])
  }

  /** Splits at the first `sep`, or answers `None` when there is none. */
  function SplitFirst(s: string, sep: char): (r: Option<(string, string)>)
    ensures r.None? <==> sep !in s
    ensures r.Some? ==> r.value.0 + [sep] + r.value.1 == s && sep !in r.value.0
  {
    if s == [] then None
    else if s[0] == sep then
      assert [] + [sep] + s[1..] == s;
      Some(([], s[1..]))
    else
      match SplitFirst(s[1..], sep)
      case None => None
      case Some((a, b)) =>
        assert [s[0]] + a + [sep] + b == s by { assert s == [s[0]] + s[1..]; }
        Some(([s[0]] + a, b))
  }

  /** A `Set-Cookie` value read back: cookie name, value and attributes in order. */
  datatype SetCookie = SetCookie(name: string, value: string, attributes: seq<string>)

  /**
   * Reads a `Set-Cookie` value in the style of section 5.2 of RFC 6265:
   * `;`-separated pieces, white space trimmed, empty pieces skipped, the
   * first piece split at its first `=`. It is a simplified reader, not the
   * RFC's algorithm: an empty first piece is skipped rather than making the
   * whole value ignored, an empty cookie name is accepted, trimming uses the
   * ECMAScript white-space set rather than the RFC's WSP, and the name and
   * value are not trimmed again on their own.
   */
  function ParseSetCookie(s: string): (r: Option<SetCookie>)
    ensures r.Some? ==> forall i :: 0 <= i < |r.value.attributes| ==>
                          r.value.attributes[i] != [] && ';' !in r.value.attributes[i]
  {
    var pieces := Clean(Split(s, ';'));
    if pieces == [] then None
    else
      match SplitFirst(pieces[0], '=')
      case None => None
      case Some((n, v)) =>
        SplitHasNoSep(s, ';');
        CleanKeepsNoSep(Split(s, ';'), ';');
        Some(SetCookie(n, v, pieces[1..]))
  }

  lemma {:induction false} SplitHasNoSep(s: string, sep: char)
    ensures forall i :: 0 <= i < |Split(s, sep)| ==> sep !in Split(s, sep)[i]
    decreases |s|
  {
    if s != [] {
      SplitHasNoSep(s[1..], sep);
      var rest := Split(s[1..], sep);
      if s[0] != sep {
        assert Split(s, sep) == [[s[0]] + rest[0]] + rest[1..];
        assert forall i :: 1 <= i < |Split(s, sep)| ==> Split(s, sep)[i] == rest[i];
      }
    }
  }

  lemma {:induction false} CleanKeepsNoSep(pieces: seq<string>, sep: char)
    requires forall i :: 0 <= i < |pieces| ==> sep !in pieces[i]
    ensures forall i :: 0 <= i < |Clean(pieces)| ==> sep !in Clean(pieces)[i]
  {
    if pieces != [] {
      assert forall i :: 0 <= i < |pieces[1..]| ==> pieces[1..][i] == pieces[i + 1];
      CleanKeepsNoSep(pieces[1..], sep);
      var p := Trim(pieces[0]);
      var rest := Clean(pieces[1..]);
      if p != [] {
        assert Clean(pieces) == [p] + rest;
        forall i | 0 <= i < |Clean(pieces)| ensures sep !in Clean(pieces)[i] {
          if i > 0 {
            assert Clean(pieces)[i] == rest[i - 1];
          }
        }
      } else {
        assert Clean(pieces) == rest;
      }
    }
  }

  /** A leading space is trimmed away from an attribute without white space of its own. */
  lemma TrimLeadingSpace(m: string)
    requires m != [] && IsTrimmed(m)
    ensures Trim(" " + m) == m
  {
    assert " " + m + [] == " " + m;
    TrimSurrounded(" ", m, []);
  }

  /** An attribute as `setTokenCookie` writes it: non-empty, no `;`, no surrounding white space. */
  predicate IsAttribute(a: string) {
    a != [] && IsTrimmed(a) && ';' !in a
  }

  /** The text after the first `;`: each attribute as ` <attr>;`, then a blank tail. */
  function AttributeText(attrs: seq<string>, tail: string): string {
    if attrs == [] then tail else " " + attrs[0] + [';'] + AttributeText(attrs[1..], tail)
  }

  /** One step of `Clean` over a piece list. */
  lemma CleanStep(p: string, rest: seq<string>)
    ensures Clean([p] + rest) == (if Trim(p) == [] then Clean(rest) else [Trim(p)] + Clean(rest))
  {
    assert ([p] + rest)[1..] == rest;
  }

  /** The attribute text reads back as exactly its attributes. */
  lemma {:induction false} AttributeTextReadsBack(attrs: seq<string>, tail: string)
    requires forall i :: 0 <= i < |attrs| ==> IsAttribute(attrs[i])
    requires IsBlank(tail) && ';' !in tail
    ensures Clean(Split(AttributeText(attrs, tail), ';')) == attrs
  {
    if attrs == [] {
      SplitWhole(tail, ';');
      CleanStep(tail, []);
      assert Trim(tail) == [];
    } else {
      var a := attrs[0];
      var head := " " + a;
      var rest := AttributeText(attrs[1..], tail);
      assert IsAttribute(a);
      assert ';' !in head by {
        assert head == [' '] + a;
      }
      assert forall i :: 0 <= i < |attrs[1..]| ==> attrs[1..][i] == attrs[i + 1];
      TrimLeadingSpace(a);
      calc {
        Clean(Split(AttributeText(attrs, tail), ';'));
        Clean(Split(head + [';'] + rest, ';'));
        { SplitJoin(head, rest, ';'); }
        Clean([head] + Split(rest, ';'));
        { CleanStep(head, Split(rest, ';')); }
        [a] + Clean(Split(rest, ';'));
        { AttributeTextReadsBack(attrs[1..], tail); }
        [a] + attrs[1..];
        attrs;
      }
    }
  }

  /** A cookie string `name=value;` followed by attribute text reads back as that cookie. */
  lemma CookieReadsBack(name: string, value: string, attrs: seq<string>, tail: string)
    requires name != [] && !IsWhitespace(name[0]) && '=' !in name && ';' !in name
    requires IsTrimmed(value) && ';' !in value
    requires forall i :: 0 <= i < |attrs| ==> IsAttribute(attrs[i])
    requires IsBlank(tail) && ';' !in tail
    ensures ParseSetCookie(name + ['='] + value + [';'] + AttributeText(attrs, tail))
         == Some(SetCookie(name, value, attrs))
  {
    var p0 := name + ['='] + value;
    var s := p0 + [';'] + AttributeText(attrs, tail);
    assert IsAttribute(p0) by {
      NameValueIsAttribute(name, value);
    }
    assert Clean(Split(s, ';')) == [p0] + attrs by {
      PiecesReadBack(p0, attrs, tail);
    }
    assert SplitFirst(p0, '=') == Some((name, value)) by {
      SplitFirstAfter(name, value, '=');
    }
    assert ([p0] + attrs)[0] == p0 && ([p0] + attrs)[1..] == attrs;
  }

  /** The leading `name=value` piece is a well-formed piece of its own. */
  lemma NameValueIsAttribute(name: string, value: string)
    requires name != [] && !IsWhitespace(name[0]) && ';' !in name
    requires IsTrimmed(value) && ';' !in value
    ensures IsAttribute(name + ['='] + value)
  {
    var p0 := name + ['='] + value;
    forall i | 0 <= i < |p0| ensures p0[i] != ';' {
      if i > |name| { assert p0[i] == value[i - |name| - 1]; }
    }
    assert p0[0] == name[0];
    if value != [] { assert p0[|p0| - 1] == value[|value| - 1]; }
  }

  /** A well-formed first piece followed by attribute text splits into that piece and the attributes. */
  lemma PiecesReadBack(p0: string, attrs: seq<string>, tail: string)
    requires IsAttribute(p0)
    requires forall i :: 0 <= i < |attrs| ==> IsAttribute(attrs[i])
    requires IsBlank(tail) && ';' !in tail
    ensures Clean(Split(p0 + [';'] + AttributeText(attrs, tail), ';')) == [p0] + attrs
  {
    var text := AttributeText(attrs, tail);
    assert Split(p0 + [';'] + text, ';') == [p0] + Split(text, ';') by {
      SplitJoin(p0, text, ';');
    }
    assert Clean([p0] + Split(text, ';')) == [p0] + Clean(Split(text, ';')) by {
      CleanStep(p0, Split(text, ';'));
      TrimOfTrimmed(p0);
    }
    assert Clean(Split(text, ';')) == attrs by {
      AttributeTextReadsBack(attrs, tail);
    }
  }

  lemma {:induction false} SplitJoin(a: string, b: string, sep: char)
    requires sep !in a
    ensures Split(a + [sep] + b, sep) == [a] + Split(b, sep)
    decreases |a|
  {
    if a == [] {
      assert a + [sep] + b == [sep] + b;
      assert ([sep] + b)[1..] == b;
    } else {
      var s := a + [sep] + b;
      assert s[0] == a[0] && s[1..] == a[1..] + [sep] + b;
      SplitJoin(a[1..], b, sep);
      assert [a[0]] + a[1..] == a;
    }
  }

  lemma {:induction false} SplitWhole(a: string, sep: char)
    requires sep !in a
    ensures Split(a, sep) == [a]
    decreases |a|
  {
    if a != [] {
      SplitWhole(a[1..], sep);
      assert [a[0]] + a[1..] == a;
    }
  }

  lemma {:induction false} SplitFirstAfter(a: string, b: string, sep: char)
    requires sep !in a
    ensures SplitFirst(a + [sep] + b, sep) == Some((a, b))
    decreases |a|
  {
    var s := a + [sep] + b;
    if a == [] {
      assert s == [sep] + b && s[1..] == b;
    } else {
      assert s[0] == a[0] && s[1..] == a[1..] + [sep] + b;
      SplitFirstAfter(a[1..], b, sep);
      assert [a[0]] + a[1..] == a;
    }
  }

  /** The attributes `setTokenCookie` sets, in order: `Secure` only in production. */
  function TokenAttributes(maxAge: string, production: bool): seq<string> {
    ["HttpOnly", "Path=/", "Max-Age=" + maxAge, "SameSite=Strict"] + (if production then ["Secure"] else [])
  }

  predicate IsDigits(s: string) {
    forall i :: 0 <= i < |s| ==> '0' <= s[i] <= '9'
  }

  /** The token lifetime is written as `604800`. */
  lemma MaxAgeText()
    ensures Decimal(TokenLifetimeSeconds) == "604800"
  {
  }

  /**
   * Reading back the installing cookie gives the name `token`, the token as
   * value, and the attributes `HttpOnly`, `Path=/`, a `Max-Age` equal to the
   * token's lifetime, `SameSite=Strict`, and `Secure` exactly in production.
   */
  lemma SetTokenCookieReadsBack(token: string, production: bool)
    requires IsJwtText(token)
    ensures ParseSetCookie(SetTokenCookie(token, production))
         == Some(SetCookie("token", token, TokenAttributes(Decimal(TokenLifetimeSeconds), production)))
  {
    TokenCookieReadsBack(token, Decimal(TokenLifetimeSeconds), production);
  }

  /** The template reads back as its attributes for any decimal `Max-Age`. */
  lemma TokenCookieReadsBack(token: string, maxAge: string, production: bool)
    requires IsJwtText(token) && IsDigits(maxAge) && maxAge != []
    ensures ParseSetCookie(TokenCookie(token, maxAge, production))
         == Some(SetCookie("token", token, TokenAttributes(maxAge, production)))
  {
    var attrs := TokenAttributes(maxAge, production);
    var tail := if production then "" else " ";
    assert forall i :: 0 <= i < |attrs| ==> IsAttribute(attrs[i]) by {
      TokenAttributesWellFormed(maxAge, production);
    }
    assert ';' !in token && IsTrimmed(token) by {
      assert forall i :: 0 <= i < |token| ==> IsJwtChar(token[i]);
    }
    assert TokenCookie(token, maxAge, production) == "token" + ['='] + token + [';'] + AttributeText(attrs, tail) by {
      TokenCookieShape(token, maxAge, production);
    }
    CookieReadsBack("token", token, attrs, tail);
  }

  lemma TokenAttributesWellFormed(maxAge: string, production: bool)
    requires IsDigits(maxAge) && maxAge != []
    ensures forall i :: 0 <= i < |TokenAttributes(maxAge, production)| ==> IsAttribute(TokenAttributes(maxAge, production)[i])
  {
    var m := "Max-Age=" + maxAge;
    assert IsAttribute(m) by {
      forall i | 0 <= i < |m| ensures m[i] != ';' {
        if i >= 8 { assert m[i] == maxAge[i - 8]; }
      }
      assert m[|m| - 1] == maxAge[|maxAge| - 1];
    }
    var attrs := TokenAttributes(maxAge, production);
    forall i | 0 <= i < |attrs| ensures IsAttribute(attrs[i]) {
      if i == 2 {
        assert attrs[i] == m;
      }
    }
  }

  /** The template is the token followed by the attribute text. */
  lemma TokenCookieShape(token: string, maxAge: string, production: bool)
    ensures TokenCookie(token, maxAge, production)
         == "token" + ['='] + token + [';'] + AttributeText(TokenAttributes(maxAge, production), if production then "" else " ")
  {
    var tail := if production then "" else " ";
    var rest: seq<string> := if production then ["Secure"] else [];
    var n := "token" + ['='] + token;
    assert "token=" + token == n by { assert "token=" == "token" + ['=']; }
    var end := "; " + (if production then "Secure;" else "");
    assert end == [';'] + AttributeText(rest, tail) by {
      if production {
        AttributeTextPrepend("Secure", [], tail);
        assert "; " + "Secure;" == [';'] + (" " + "Secure" + [';'] + "");
      } else {
        assert "; " + "" == [';'] + " ";
      }
    }
    assert TokenAttributes(maxAge, production) == ["HttpOnly", "Path=/", "Max-Age=" + maxAge, "SameSite=Strict"] + rest;
    TemplateShape(n, "HttpOnly", "Path=/", "Max-Age=" + maxAge, "SameSite=Strict", rest, tail, end);
  }

  /** Four attributes and an end piece after a name-value pair read as the attribute text. */
  lemma TemplateShape(n: string, a: string, b: string, c: string, d: string, rest: seq<string>, tail: string, end: string)
    requires end == [';'] + AttributeText(rest, tail)
    ensures n + Attribute(a) + Attribute(b) + Attribute(c) + Attribute(d) + end
         == n + [';'] + AttributeText([a, b, c, d] + rest, tail)
  {
    AttributeTextFour(a, b, c, d, rest, tail);
    JoinFour(n, a, b, c, d, AttributeText(rest, tail));
    AttributeSplit(a);
    AttributeSplit(b);
    AttributeSplit(c);
    AttributeSplit(d);
  }

  lemma AttributeSplit(a: string)
    ensures Attribute(a) == [';'] + " " + a
  {
    assert "; " == [';'] + " ";
  }

  lemma AttributeTextPrepend(a: string, rest: seq<string>, tail: string)
    ensures AttributeText([a] + rest, tail) == " " + a + [';'] + AttributeText(rest, tail)
  {
    assert ([a] + rest)[1..] == rest;
  }

  lemma AttributeTextFour(h: string, p: string, m: string, q: string, rest: seq<string>, tail: string)
    ensures AttributeText([h, p, m, q] + rest, tail)
         == " " + h + [';'] + (" " + p + [';'] + (" " + m + [';'] + (" " + q + [';'] + AttributeText(rest, tail))))
  {
    assert [h, p, m, q] + rest == [h] + ([p] + ([m] + ([q] + rest)));
    AttributeTextPrepend(q, rest, tail);
    AttributeTextPrepend(m, [q] + rest, tail);
    AttributeTextPrepend(p, [m] + ([q] + rest), tail);
    AttributeTextPrepend(h, [p] + ([m] + ([q] + rest)), tail);
  }

  /** The attributes `clearTokenCookie` sets. */
  const ClearAttributes: seq<string> := ["HttpOnly", "Path=/", "Max-Age=0", "SameSite=Strict"]

  /** Reading back the clearing cookie gives an empty `token` that expires at once. */
  lemma ClearTokenCookieReadsBack()
    ensures ParseSetCookie(ClearTokenCookie()) == Some(SetCookie("token", "", ClearAttributes))
  {
    assert ClearTokenCookie() == "token" + ['='] + "" + [';'] + AttributeText(ClearAttributes, "") by {
      ClearTokenCookieShape();
    }
    assert forall i :: 0 <= i < |ClearAttributes| ==> IsAttribute(ClearAttributes[i]) by {
      assert "Max-Age=" + "0" == "Max-Age=0";
      assert TokenAttributes("0", false) == ClearAttributes;
      TokenAttributesWellFormed("0", false);
    }
    CookieReadsBack("token", "", ClearAttributes, "");
  }

  /** Four attributes after a name-value pair, with the separators regrouped attribute by attribute. */
  lemma JoinFour(n: string, a: string, b: string, c: string, d: string, tail: string)
    ensures n + [';'] + (" " + a + [';'] + (" " + b + [';'] + (" " + c + [';'] + (" " + d + [';'] + tail))))
         == n + ([';'] + " " + a) + ([';'] + " " + b) + ([';'] + " " + c) + ([';'] + " " + d) + ([';'] + tail)
  {
  }

  /** `clearTokenCookie`'s text is the empty token followed by the attribute text. */
  lemma ClearTokenCookieShape()
    ensures ClearTokenCookie() == "token" + ['='] + "" + [';'] + AttributeText(ClearAttributes, "")
  {
    assert "token=" == "token" + ['='] + "";
    assert ";" == [';'] + AttributeText([], "");
    assert ClearAttributes == ["HttpOnly", "Path=/", "Max-Age=0", "SameSite=Strict"] + [];
    TemplateShape("token=", "HttpOnly", "Path=/", "Max-Age=0", "SameSite=Strict", [], "", ";");
  }

  /** The cookie lives exactly as long as the token it carries. */
  lemma CookieLifetimeMatchesToken(user: UserRecord, now: int, token: string, production: bool)
    requires IsJwtText(token)
    ensures var c := TokenClaims(user, now);
      var parsed := ParseSetCookie(SetTokenCookie(token, production));
      parsed.Some? && "Max-Age=" + Decimal(c.expiresAt - c.issuedAt) in parsed.value.attributes
  {
    var c := TokenClaims(user, now);
    assert c.expiresAt - c.issuedAt == TokenLifetimeSeconds;
    var attrs := TokenAttributes(Decimal(TokenLifetimeSeconds), production);
    assert ParseSetCookie(SetTokenCookie(token, production)) == Some(SetCookie("token", token, attrs)) by {
      SetTokenCookieReadsBack(token, production);
    }
    assert attrs[2] == "Max-Age=" + Decimal(TokenLifetimeSeconds);
  }
}

=== FILE: auth_slice.dfy ===
/**
 * The client-side session state of `src/store/slices/authSlice.ts`: the
 * signed-in user, the bearer token, an authenticated flag, a loading flag
 * and an error slot, changed by three plain reducers and by the outcomes of
 * the login, register, load-user and logout requests (the requests
 * themselves are network calls; only the actions they dispatch are modelled).
 */
module AuthSlice {
  import opened Common

  /** The user record the server returns; its fields are carried, not inspected. */
  datatype User = User(id: string, name: string, email: string)

  /** The body of a successful login or registration. */
  datatype AuthResponse = AuthResponse(user: User, token: string)

  datatype State = State(
    user: Option<User>,
    token: Option<string>,
    isAuthenticated: bool,
    loading: bool,
    error: Option<string>)

  /** `initialState`. */
  const Initial: State := State(None, None, false, false, None)

  /** The four request thunks. */
  datatype Op = Login | Register | LoadUser | Logout

  /** The error recorded when a rejected request carries no message. */
  function DefaultError(op: Op): string {
    match op
    case Login => "Login failed"
    case Register => "Registration failed"
    case LoadUser => "Failed to load user"
    case Logout => "Logout failed"
  }

  datatype Action =
    | ClearError
    | ClearAuth
    | ForceLogout
    | Pending(op: Op)
    | LoginFulfilled(response: AuthResponse)
    | RegisterFulfilled(response: AuthResponse)
    | LoadUserFulfilled(loaded: User)
    | LogoutFulfilled
    | Rejected(op: Op, payload: Option<string>)

  /** The session is signed out: no user, no token, not authenticated. */
  predicate SignedOut(s: State) {
    s.user.None? && s.token.None? && !s.isAuthenticated
  }

  /** The reducer. */
  function Reduce(s: State, a: Action): (r: State)
    // only a successful login, registration or load authenticates
    ensures r.isAuthenticated && !s.isAuthenticated ==>
              a.LoginFulfilled? || a.RegisterFulfilled? || a.LoadUserFulfilled?
    // only a successful login or registration installs a new token
    ensures r.token.Some? && r.token != s.token ==> a.LoginFulfilled? || a.RegisterFulfilled?
    // loading is set by a pending request and cleared by every outcome and by the resets
    ensures r.loading == (a.Pending? || (a.ClearError? && s.loading))
    // an error can only come from a rejected request, or be kept from before
    ensures r.error.Some? ==> a.Rejected? || r.error == s.error
  {
    match a
    case ClearError => s.(error := None)
    case ClearAuth => State(None, None, false, false, None)
    case ForceLogout => State(None, None, false, false, None)
    case Pending(op) =>
      if op == LoadUser then s.(loading := true) else s.(loading := true, error := None)
    case LoginFulfilled(resp) =>
      s.(loading := false, user := Some(resp.user), token := Some(resp.token),
         isAuthenticated := true, error := None)
    case RegisterFulfilled(resp) =>
      s.(loading := false, user := Some(resp.user), token := Some(resp.token),
         isAuthenticated := true, error := None)
    case LoadUserFulfilled(u) =>
      s.(loading := false, user := Some(u), isAuthenticated := true, error := None)
    case LogoutFulfilled => State(None, None, false, false, None)
    case Rejected(op, payload) =>
      var e := Some(OrElse(payload, DefaultError(op)));
      if op == Logout then State(None, None, false, false, e)
      else s.(loading := false, error := e, isAuthenticated := false)
  }

  /** The state after a sequence of actions, in dispatch order. */
  function Run(s: State, actions: seq<Action>): State
    decreases |actions|
  {
    if actions == [] then s else Run(Reduce(s, actions[0]), actions[1..])
  }

  /** `clearAuth` and `forceLogout` both return to the initial state from any state. */
  lemma ResetsAreInitial(s: State)
    ensures Reduce(s, ClearAuth) == Initial
    ensures Reduce(s, ForceLogout) == Initial
  {
  }

  /** `clearError` empties the error slot and touches nothing else. */
  lemma ClearErrorEffect(s: State)
    ensures var r := Reduce(s, ClearError);
      && r.error.None? && r.user == s.user && r.token == s.token
      && r.isAuthenticated == s.isAuthenticated && r.loading == s.loading
  {
  }

  /** A successful login or registration signs in with the returned user and token. */
  lemma SignInEffect(s: State, resp: AuthResponse)
    ensures var r := Reduce(s, LoginFulfilled(resp));
      r.user == Some(resp.user) && r.token == Some(resp.token) && r.isAuthenticated &&
      !r.loading && r.error.None?
    ensures Reduce(s, RegisterFulfilled(resp)) == Reduce(s, LoginFulfilled(resp))
  {
  }

  /**
   * A failed login, registration or user load drops the authenticated flag
   * and records the error, but keeps whatever user and token were held
   * before.
   */
  lemma SignInRejectedKeepsCredentials(s: State, op: Op, payload: Option<string>)
    requires op != Logout
    ensures var r := Reduce(s, Rejected(op, payload));
      && !r.isAuthenticated && !r.loading
      && r.user == s.user && r.token == s.token
      && r.error == Some(if payload.Some? && payload.value != "" then payload.value else DefaultError(op))
  {
  }

  /**
   * Logging out signs out whether or not the request succeeded; a failed
   * request additionally records its error.
   */
  lemma LogoutAlwaysSignsOut(s: State, payload: Option<string>)
    ensures Reduce(s, LogoutFulfilled) == Initial
    ensures var r := Reduce(s, Rejected(Logout, payload));
      SignedOut(r) && !r.loading && r.error.Some?
    ensures Reduce(s, Rejected(Logout, payload)).error == Some(OrElse(payload, DefaultError(Logout)))
    ensures payload.None? || payload.value == "" ==> Reduce(s, Rejected(Logout, payload)).error == Some("Logout failed")
  {
  }

  /**
   * Loading the current user is the one pending case that keeps the old
   * error; every other pending case clears it.
   */
  lemma PendingErrorAsymmetry(s: State, op: Op)
    ensures Reduce(s, Pending(op)).loading
    ensures op == LoadUser ==> Reduce(s, Pending(op)).error == s.error
    ensures op != LoadUser ==> Reduce(s, Pending(op)).error.None?
    ensures Reduce(s, Pending(op)).user == s.user && Reduce(s, Pending(op)).token == s.token
    ensures Reduce(s, Pending(op)).isAuthenticated == s.isAuthenticated
  {
  }

  /** A loaded user authenticates the session without touching the token. */
  lemma LoadUserEffect(s: State, u: User)
    ensures var r := Reduce(s, LoadUserFulfilled(u));
      r.user == Some(u) && r.isAuthenticated && r.token == s.token && r.error.None?
  {
  }

  /** The session invariant: an authenticated session always holds a user. */
  predicate HasUserWhenAuthenticated(s: State) {
    s.isAuthenticated ==> s.user.Some?
  }

  /** Every action keeps the session invariant. */
  lemma StepKeepsUser(s: State, a: Action)
    requires HasUserWhenAuthenticated(s)
    ensures HasUserWhenAuthenticated(Reduce(s, a))
  {
  }

  /** Every state reached from the initial one satisfies the session invariant. */
  lemma {:induction false} ReachableHasUser(s: State, actions: seq<Action>)
    requires HasUserWhenAuthenticated(s)
    ensures HasUserWhenAuthenticated(Run(s, actions))
    decreases |actions|
  {
    if actions != [] {
      StepKeepsUser(s, actions[0]);
      ReachableHasUser(Reduce(s, actions[0]), actions[1..]);
    }
  }

  /**
   * The token is not part of that invariant: loading the current user from
   * the initial state authenticates a session that holds no token.
   */
  lemma AuthenticatedWithoutToken(u: User)
    ensures var r := Run(Initial, [LoadUserFulfilled(u)]);
      r.isAuthenticated && r.token.None?
  {
    assert [LoadUserFulfilled(u)][1..] == [];
  }
}

=== FILE: common.dfy ===
/**
 * Shared vocabulary of the model: an optional value (JavaScript's
 * `null`/`undefined` against a present value), the ECMAScript notion of
 * white space that `String.prototype.trim` strips, and subsequences.
 */
module Common {

  /** A value that may be absent; `None` stands for `null` or `undefined`. */
  datatype Option<+T> = None | Some(value: T)

  /**
   * JavaScript's `s || fallback` on an optional string: an absent or empty
   * string is falsy, so the fallback is used.
   */
  function OrElse(s: Option<string>, fallback: string): (r: string)
    ensures r == fallback || (s.Some? && r == s.value)
    ensures r == fallback <== s.None? || s.value == ""
    ensures s.Some? && s.value != "" ==> r == s.value
  {
    if s.Some? && s.value != "" then s.value else fallback
  }

  /**
   * The characters `String.prototype.trim` removes: WhiteSpace and
   * LineTerminator of ECMA-262 (tab, vertical tab, form feed, space,
   * no-break space, byte order mark, the Unicode space separators, line
   * feed, carriage return, line and paragraph separators).
   */
  predicate IsWhitespace(c: char) {
    c in {'\t', '\n', '\U{000B}', '\U{000C}', '\r', ' ', '\U{00A0}', '\U{1680}',
          '\U{2000}', '\U{2001}', '\U{2002}', '\U{2003}', '\U{2004}', '\U{2005}',
          '\U{2006}', '\U{2007}', '\U{2008}', '\U{2009}', '\U{200A}', '\U{2028}',
          '\U{2029}', '\U{202F}', '\U{205F}', '\U{3000}', '\U{FEFF}'}
  }

  /** Every character is white space (the empty string is blank). */
  predicate IsBlank(s: string) {
    forall i :: 0 <= i < |s| ==> IsWhitespace(s[i])
  }

  /** Neither the first nor the last character is white space. */
  predicate IsTrimmed(s: string) {
    s == [] || (!IsWhitespace(s[0]) && !IsWhitespace(s[|s| - 1]))
  }

  /**
   * `String.prototype.trim`: white space is dropped from the front, then
   * from the back, until neither end is white space. The result is trimmed,
   * made of characters of `s`, no longer than `s`, and empty exactly when
   * `s` is blank; `TrimSurrounded` shows it is what is left once the blank
   * margins of `s` are removed.
   */
  function Trim(s: string): (r: string)
    ensures IsTrimmed(r)
    ensures |r| <= |s|
    ensures forall i :: 0 <= i < |r| ==> r[i] in s
    ensures r == [] <==> IsBlank(s)
    decreases |s|
  {
    if |s| > 0 && IsWhitespace(s[0]) then
      var r := Trim(s[1..]);
      assert IsBlank(s) <==> IsBlank(s[1..]) by {
        if IsBlank(s[1..]) {
          forall i | 0 <= i < |s| ensures IsWhitespace(s[i]) {
            if i > 0 { assert s[i] == s[1..][i - 1]; }
          }
        }
      }
      assert forall c :: c in s[1..] ==> c in s;
      r
    else if |s| > 0 && IsWhitespace(s[|s| - 1]) then
      var t := s[..|s| - 1];
      var r := Trim(t);
      // the front is not white space, so the back is a second character
      assert |s| >= 2 && t[0] == s[0];
      assert !IsBlank(s) && !IsBlank(t);
      assert forall c :: c in t ==> c in s;
      r
    else
      assert s != [] ==> !IsBlank(s);
      s
  }

  /**
   * `Trim` is determined by its contract: surrounding a trimmed string with
   * white space on either side and trimming gives the string back.
   */
  lemma {:induction false} TrimSurrounded(a: string, m: string, b: string)
    requires IsBlank(a) && IsBlank(b) && IsTrimmed(m)
    ensures Trim(a + m + b) == m
    decreases |a| + |b|
  {
    var s := a + m + b;
    if a != [] {
      assert s[0] == a[0];
      assert s[1..] == a[1..] + m + b;
      TrimSurrounded(a[1..], m, b);
    } else if m == [] {
      assert s == b;
    } else if b != [] {
      assert s == m + b;
      assert s[0] == m[0] && s[|s| - 1] == b[|b| - 1];
      assert s[..|s| - 1] == [] + m + b[..|b| - 1];
      TrimSurrounded([], m, b[..|b| - 1]);
    } else {
      assert s == m;
    }
  }

  /** A trimmed string is its own trim. */
  lemma TrimOfTrimmed(s: string)
    requires IsTrimmed(s)
    ensures Trim(s) == s
  {
    assert [] + s + [] == s;
    TrimSurrounded([], s, []);
  }

  /** Trimming twice is trimming once. */
  lemma TrimIdempotent(s: string)
    ensures Trim(Trim(s)) == Trim(s)
  {
    TrimOfTrimmed(Trim(s));
  }

  /** `xs` is obtained from `ys` by deleting elements, keeping order. */
  predicate IsSubsequence<T(==)>(xs: seq<T>, ys: seq<T>)
    decreases |ys|
  {
    if xs == [] then true
    else if ys == [] then false
    else (xs[0] == ys[0] && IsSubsequence(xs[1..], ys[1..])) || IsSubsequence(xs, ys[1..])
  }

  /** Every element of a subsequence is an element of the list. */
  lemma {:induction false} SubsequenceMembers<T>(xs: seq<T>, ys: seq<T>)
    requires IsSubsequence(xs, ys)
    ensures forall i :: 0 <= i < |xs| ==> exists m :: 0 <= m < |ys| && ys[m] == xs[i]
    decreases |ys|
  {
    if xs != [] {
      if xs[0] == ys[0] && IsSubsequence(xs[1..], ys[1..]) {
        SubsequenceMembers(xs[1..], ys[1..]);
        forall i | 1 <= i < |xs| ensures exists m :: 0 <= m < |ys| && ys[m] == xs[i] {
          assert xs[i] == xs[1..][i - 1];
          var m :| 0 <= m < |ys[1..]| && ys[1..][m] == xs[i];
          assert ys[m + 1] == xs[i];
        }
      } else {
        SubsequenceMembers(xs, ys[1..]);
        forall i | 0 <= i < |xs| ensures exists m :: 0 <= m < |ys| && ys[m] == xs[i] {
          var m :| 0 <= m < |ys[1..]| && ys[1..][m] == xs[i];
          assert ys[m + 1] == xs[i];
        }
      }
    }
  }
}

=== FILE: middleware.dfy ===
/**
 * The route guard of `src/middleware.ts`: public pages pass untouched; any
 * other page needs a token the JWT library accepts, and the identity it
 * carries is forwarded to the handler in three request headers. Which paths
 * the guard is attached to (its matcher configuration) is not modelled.
 */
module Middleware {
  import opened Common
  import opened AuthLib
  import TaskModel
  import TasksRoute

  /** What the guard does with a request. */
  datatype Decision =
    | Next                                          // forward the request as it came
    | NextWithHeaders(headers: map<string, string>)  // forward it with these request headers
    | Redirect(location: string)                    // send the browser elsewhere
    | Failure                                       // the guard threw: nothing is forwarded

  /** The pages anyone may see. */
  const PublicRoutes: set<string> := {"/login", "/register", "/"}

  const LoginPath: string := "/login"

  const UserIdHeader: string := "x-user-id"
  const UserEmailHeader: string := "x-user-email"
  const UserNameHeader: string := "x-user-name"

  /** HTTP white space as the Fetch standard defines it: tab, line feed, carriage return, space. */
  predicate IsHttpWhitespace(c: char) {
    c == '\t' || c == '\n' || c == '\r' || c == ' '
  }

  /** No HTTP white space at either end. */
  predicate IsHttpTrimmed(s: string) {
    s == [] || (!IsHttpWhitespace(s[0]) && !IsHttpWhitespace(s[|s| - 1]))
  }

  /** Removes leading and trailing HTTP white space, keeping the characters in between. */
  function StripHttpWhitespace(s: string): (r: string)
    ensures IsHttpTrimmed(r)
    ensures |r| <= |s|
    ensures forall i :: 0 <= i < |r| ==> r[i] in s
    ensures IsHttpTrimmed(s) ==> r == s
    decreases |s|
  {
    if |s| > 0 && IsHttpWhitespace(s[0]) then
      var r := StripHttpWhitespace(s[1..]);
      assert forall c :: c in s[1..] ==> c in s;
      r
    else if |s| > 0 && IsHttpWhitespace(s[|s| - 1]) then
      var r := StripHttpWhitespace(s[..|s| - 1]);
      assert forall c :: c in s[..|s| - 1] ==> c in s;
      r
    else
      s
  }

  /** Every character fits in one byte, as a WebIDL `ByteString` demands. */
  predicate IsByteString(s: string) {
    forall i :: 0 <= i < |s| ==> s[i] <= '\U{00FF}'
  }

  /** The characters a header value may not contain once normalised. */
  predicate HasForbiddenByte(s: string) {
    '\0' in s || '\n' in s || '\r' in s
  }

  /**
   * The value `Headers.set` stores: the argument must be a `ByteString`, it
   * is normalised by stripping HTTP white space, and a normalised value with
   * a NUL, line feed or carriage return is refused. `None` is the thrown
   * `TypeError`.
   */
  function HeaderValue(v: string): (r: Option<string>)
    ensures r.Some? <==> IsByteString(v) && !HasForbiddenByte(StripHttpWhitespace(v))
    ensures r.Some? ==> r.value == StripHttpWhitespace(v)
  {
    if !IsByteString(v) then None
    else
      var n := StripHttpWhitespace(v);
      if HasForbiddenByte(n) then None else Some(n)
  }

  /** A value that is already a clean header value is stored as it is. */
  lemma CleanValueStoredAsIs(v: string)
    requires IsByteString(v) && IsHttpTrimmed(v) && !HasForbiddenByte(v)
    ensures HeaderValue(v) == Some(v)
  {
  }

  /** A character beyond one byte anywhere in the value makes `Headers.set` throw. */
  lemma WideCharacterRefused(v: string, i: int)
    requires 0 <= i < |v| && v[i] > '\U{00FF}'
    ensures HeaderValue(v).None?
  {
  }

  /** Spaces around a clean value, as in `" Bob "`, are stripped before the header is stored. */
  lemma PaddedValueStripped(m: string)
    requires IsByteString(m) && IsHttpTrimmed(m) && !HasForbiddenByte(m)
    ensures HeaderValue(" " + m + " ") == Some(m)
  {
    assert StripHttpWhitespace(" " + m + " ") == m by {
      StripPadding(m);
    }
    assert IsByteString(" " + m + " ") by {
      PaddingByteString(m);
    }
  }

  /** One space on each side of an HTTP-trimmed text is all that stripping removes. */
  lemma StripPadding(m: string)
    requires IsHttpTrimmed(m)
    ensures StripHttpWhitespace(" " + m + " ") == m
  {
    var v := " " + m + " ";
    var w := m + " ";
    assert v[0] == ' ' && v[1..] == w;
    assert w[|w| - 1] == ' ' && w[..|w| - 1] == m;
    if m != [] {
      assert w[0] == m[0];
    }
  }

  /** Spaces fit in one byte, so padding keeps a `ByteString` one. */
  lemma PaddingByteString(m: string)
    requires IsByteString(m)
    ensures IsByteString(" " + m + " ")
  {
    var v := " " + m + " ";
    forall i | 0 <= i < |v| ensures v[i] <= '\U{00FF}' {
      if 0 < i < |v| - 1 { assert v[i] == m[i - 1]; }
    }
  }

  /** A name outside Latin-1, such as `Łukasz`, cannot be stored in a header. */
  lemma WideNameRefused()
    ensures HeaderValue("\U{0141}ukasz").None?
  {
    WideCharacterRefused("\U{0141}ukasz", 0);
  }

  /** Every identity field of the payload can be stored in a header. */
  predicate ForwardableIdentity(p: Payload) {
    HeaderValue(p.userId).Some? && HeaderValue(p.email).Some? && HeaderValue(p.name).Some?
  }

  /**
   * `requestHeaders.set(...)` three times: the normalised identity values
   * overwrite whatever the client sent, or the first value `Headers.set`
   * refuses makes the whole guard throw (`None`).
   */
  function WithIdentity(headers: map<string, string>, p: Payload): (h: Option<map<string, string>>)
    ensures h.Some? <==> ForwardableIdentity(p)
    ensures h.Some? ==> h.value.Keys == headers.Keys + {UserIdHeader, UserEmailHeader, UserNameHeader}
    ensures h.Some? ==>
              && h.value[UserIdHeader] == StripHttpWhitespace(p.userId)
              && h.value[UserEmailHeader] == StripHttpWhitespace(p.email)
              && h.value[UserNameHeader] == StripHttpWhitespace(p.name)
    ensures h.Some? ==> forall k :: k in headers && k !in {UserIdHeader, UserEmailHeader, UserNameHeader} ==>
              h.value[k] == headers[k]
  {
    match (HeaderValue(p.userId), HeaderValue(p.email), HeaderValue(p.name))
    case (Some(id), Some(email), Some(name)) =>
      Some(headers[UserIdHeader := id][UserEmailHeader := email][UserNameHeader := name])
    case _ => None
  }

  /** `middleware`. */
  function Guard(req: Request, jwtVerify: string -> JwtResult): (d: Decision)
    ensures req.path in PublicRoutes <==> d.Next?
    ensures d.Redirect? <==> req.path !in PublicRoutes && !Authenticate(req, jwtVerify).Authenticated?
    ensures d.Redirect? ==> d.location == LoginPath
    ensures d.Failure? <==>
              req.path !in PublicRoutes && Authenticate(req, jwtVerify).Authenticated?
              && !ForwardableIdentity(Authenticate(req, jwtVerify).payload)
    ensures d.NextWithHeaders? ==>
              d.headers == WithIdentity(req.headers, Authenticate(req, jwtVerify).payload).value
  {
    if req.path in PublicRoutes then Next
    else
      match Authenticate(req, jwtVerify)
      case NoToken => Redirect(LoginPath)
      case InvalidToken => Redirect(LoginPath)
      case Authenticated(p) =>
        match WithIdentity(req.headers, p)
        case None => Failure
        case Some(h) => NextWithHeaders(h)
  }

  /** Public pages are decided without looking at any token: the verifier plays no part. */
  lemma PublicIgnoresToken(req: Request, v1: string -> JwtResult, v2: string -> JwtResult)
    requires req.path in PublicRoutes
    ensures Guard(req, v1) == Guard(req, v2) == Next
  {
  }

  /** Following the redirect leads to a public page, so the guard never redirects twice. */
  lemma RedirectSettles(req: Request, v: string -> JwtResult)
    requires Guard(req, v).Redirect?
    ensures Guard(req.(path := Guard(req, v).location), v) == Next
  {
  }

  /**
   * A client cannot choose its identity: a forged `x-user-id` header is
   * replaced by the (normalised) user id of the verified token.
   */
  lemma IdentityNotSpoofable(req: Request, v: string -> JwtResult, forged: string)
    requires Guard(req, v).NextWithHeaders?
    ensures var p := Authenticate(req, v).payload;
      var fwd := Guard(req.(headers := req.headers[UserIdHeader := forged]), v);
      fwd.NextWithHeaders? && fwd.headers[UserIdHeader] == StripHttpWhitespace(p.userId)
  {
    var req2 := req.(headers := req.headers[UserIdHeader := forged]);
    assert TokenFromRequest(req2) == TokenFromRequest(req) by {
      assert "authorization" in req2.headers <==> "authorization" in req.headers;
      if "authorization" in req.headers {
        assert req2.headers["authorization"] == req.headers["authorization"];
      }
    }
  }

  /**
   * The forwarded request still carries the same token, so the handler
   * behind the guard authenticates it to the same identity.
   */
  lemma ForwardedRequestSameIdentity(req: Request, v: string -> JwtResult)
    requires Guard(req, v).NextWithHeaders?
    ensures Authenticate(req.(headers := Guard(req, v).headers), v) == Authenticate(req, v)
  {
    var req2 := req.(headers := Guard(req, v).headers);
    assert TokenFromRequest(req2) == TokenFromRequest(req) by {
      assert "authorization" in req2.headers <==> "authorization" in req.headers;
      if "authorization" in req.headers {
        assert req2.headers["authorization"] == req.headers["authorization"];
      }
    }
  }

  /**
   * The guard and the task endpoint apply the same gate: on a guarded path
   * the guard redirects exactly the requests the listing answers with a 401;
   * of the others it forwards those whose identity fits in headers and fails
   * on the rest. When the listing is served, the forwarded `x-user-id` is
   * exactly the owner the listing is scoped to.
   */
  lemma GuardAgreesWithListing(req: Request, v: string -> JwtResult, store: seq<TaskModel.Task>)
    requires req.path !in PublicRoutes
    ensures Guard(req, v).Redirect? <==> TasksRoute.Get(req, v, true, store, true).status == 401
    ensures Guard(req, v).NextWithHeaders? <==>
              TasksRoute.Get(req, v, true, store, true).status != 401
              && ForwardableIdentity(Authenticate(req, v).payload)
    ensures Guard(req, v).Failure? <==>
              TasksRoute.Get(req, v, true, store, true).status != 401
              && !ForwardableIdentity(Authenticate(req, v).payload)
    ensures Guard(req, v).NextWithHeaders? && TasksRoute.Get(req, v, true, store, true).status == 200 ==>
              Guard(req, v).headers[UserIdHeader] == TasksRoute.Get(req, v, true, store, true).body.query.userId
  {
    if Guard(req, v).NextWithHeaders? && TasksRoute.Get(req, v, true, store, true).status == 200 {
      var id := Authenticate(req, v).payload.userId;
      assert IsHttpTrimmed(id) by {
        assert TaskModel.IsHexDigit(id[0]) && TaskModel.IsHexDigit(id[|id| - 1]);
      }
    }
  }
}

=== FILE: task_form.dfy ===
/**
 * The task form of `src/components/TaskForm.tsx`: the fields it holds,
 * their validation, the normalised data it submits, and how opening the
 * form for a task fills it in. Rendering and per-keystroke editing are not
 * modelled.
 *
 * The clock is a parameter: `isPast(d)` says whether the date text `d`
 * denotes a moment before now.
 */
module TaskForm {
  import opened Common
  import opened TaskModel
  import TasksRoute

  /** The three text inputs; every one is a string, empty when untouched. */
  datatype FormData = FormData(title: string, description: string, dueDate: string)

  const EmptyForm: FormData := FormData("", "", "")

  /** The inputs an error can be attached to. */
  datatype Field = TitleField | DescriptionField | DueDateField

  const DueDateInPast: string := "Due date cannot be in the past"

  /** The form's state: its data and the error shown under each input. */
  datatype FormState = FormState(data: FormData, errors: map<Field, string>)

  /** The title check: blank is required, otherwise over 100 characters as typed is too long. */
  function TitleError(title: string): (r: Option<string>)
    ensures r.Some? <==> IsBlank(title) || |title| > MaxTitleLength
    ensures r.Some? ==> r.value == (if IsBlank(title) then TitleRequired else TitleTooLong)
  {
    if Trim(title) == [] then Some(TitleRequired)
    else if |title| > MaxTitleLength then Some(TitleTooLong)
    else None
  }

  /** The description check: only a non-empty description can be too long. */
  function DescriptionError(description: string): (r: Option<string>)
    ensures r.Some? <==> |description| > MaxDescriptionLength
    ensures r.Some? ==> r.value == DescriptionTooLong
  {
    if description != "" && |description| > MaxDescriptionLength then Some(DescriptionTooLong) else None
  }

  /** The due-date check: only a filled-in date can lie in the past. */
  function DueDateError(dueDate: string, isPast: string -> bool): (r: Option<string>)
    ensures r.Some? <==> dueDate != "" && isPast(dueDate)
    ensures r.Some? ==> r.value == DueDateInPast
  {
    if dueDate != "" && isPast(dueDate) then Some(DueDateInPast) else None
  }

  /** The error object built field by field: an entry for each check that failed. */
  function ErrorMap(title: Option<string>, description: Option<string>, dueDate: Option<string>)
    : (m: map<Field, string>)
    ensures TitleField in m <==> title.Some?
    ensures DescriptionField in m <==> description.Some?
    ensures DueDateField in m <==> dueDate.Some?
    ensures TitleField in m ==> m[TitleField] == title.value
    ensures DescriptionField in m ==> m[DescriptionField] == description.value
    ensures DueDateField in m ==> m[DueDateField] == dueDate.value
  {
    var m1: map<Field, string> := if title.Some? then map[TitleField := title.value] else map[];
    var m2 := if description.Some? then m1[DescriptionField := description.value] else m1;
    if dueDate.Some? then m2[DueDateField := dueDate.value] else m2
  }

  /**
   * `validateForm`'s error map: a blank title is required, a non-blank one
   * longer than 100 characters as typed is too long, a description over 500
   * characters is too long, and a due date in the past is refused.
   */
  function ValidateForm(fd: FormData, isPast: string -> bool): (errors: map<Field, string>)
    ensures TitleField in errors <==> IsBlank(fd.title) || |fd.title| > MaxTitleLength
    ensures TitleField in errors ==>
              errors[TitleField] == (if IsBlank(fd.title) then TitleRequired else TitleTooLong)
    ensures DescriptionField in errors <==> |fd.description| > MaxDescriptionLength
    ensures DescriptionField in errors ==> errors[DescriptionField] == DescriptionTooLong
    ensures DueDateField in errors <==> fd.dueDate != "" && isPast(fd.dueDate)
    ensures DueDateField in errors ==> errors[DueDateField] == DueDateInPast
  {
    ErrorMap(TitleError(fd.title), DescriptionError(fd.description), DueDateError(fd.dueDate, isPast))
  }

  /** What `handleSubmit` hands to `onSubmit`. */
  datatype Submission = Submission(title: string, description: Option<string>, dueDate: Option<string>)

  /**
   * `handleSubmit`: nothing unless the error map is empty; otherwise the
   * title trimmed, the description trimmed or absent when blank, and the
   * due date absent when empty.
   */
  function HandleSubmit(fd: FormData, isPast: string -> bool): (r: Option<Submission>)
    ensures r.Some? <==> ValidateForm(fd, isPast) == map[]
    ensures r.Some? <==>
              && !IsBlank(fd.title) && |fd.title| <= MaxTitleLength
              && |fd.description| <= MaxDescriptionLength
              && (fd.dueDate == "" || !isPast(fd.dueDate))
    ensures r.Some? ==>
              && r.value.title != [] && IsTrimmed(r.value.title) && |r.value.title| <= MaxTitleLength
              && (r.value.description.None? <==> IsBlank(fd.description))
              && (r.value.description.Some? ==>
                    r.value.description.value != [] && IsTrimmed(r.value.description.value)
                    && |r.value.description.value| <= MaxDescriptionLength)
              && (r.value.dueDate.None? <==> fd.dueDate == "")
    ensures r.Some? ==>
              && r.value.title == Trim(fd.title)
              && (r.value.description.Some? ==> r.value.description.value == Trim(fd.description))
              && (r.value.dueDate.Some? ==> r.value.dueDate.value == fd.dueDate)
  {
    var errors := ValidateForm(fd, isPast);
    if errors != map[] then
      assert errors.Keys != {};
      None
    else
      assert TitleField !in errors && DescriptionField !in errors && DueDateField !in errors;
      var description := Trim(fd.description);
      Some(Submission(Trim(fd.title),
                      if description == [] then None else Some(description),
                      if fd.dueDate == "" then None else Some(fd.dueDate)))
  }

  /** The date part of an ISO timestamp: everything before the first `T`. */
  function DatePart(iso: string): (r: string)
    ensures |r| <= |iso| && r == iso[..|r|]
    ensures 'T' !in r
    ensures |r| < |iso| ==> iso[|r|] == 'T'
  {
    if iso == [] || iso[0] == 'T' then [] else [iso[0]] + DatePart(iso[1..])
  }

  /**
   * The effect run when the form opens: an existing task fills the inputs
   * (an absent description as empty, the due date as its calendar date), a
   * missing one empties them; either way the errors are cleared.
   */
  function Prefill(task: Option<Task>): (s: FormState)
    ensures s.errors == map[]
    ensures task.None? ==> s.data == EmptyForm
    ensures task.Some? ==>
              && s.data.title == task.value.title
              && s.data.description == OrElse(task.value.description, "")
              && (s.data.dueDate == "" <==> task.value.dueDate.None? || DatePart(task.value.dueDate.value) == "")
    ensures task.Some? && task.value.dueDate.Some? && task.value.dueDate.value != "" ==>
              s.data.dueDate == DatePart(task.value.dueDate.value)
  {
    match task
    case None => FormState(EmptyForm, map[])
    case Some(t) =>
      FormState(FormData(t.title, OrElse(t.description, ""),
                         if t.dueDate.Some? && t.dueDate.value != "" then DatePart(t.dueDate.value) else ""),
                map[])
  }

  /** A freshly opened form for a new task cannot be submitted: its title is required. */
  lemma NewFormRefused(isPast: string -> bool)
    ensures HandleSubmit(Prefill(None).data, isPast).None?
    ensures ValidateForm(Prefill(None).data, isPast) == map[TitleField := TitleRequired]
  {
    assert Prefill(None).data == EmptyForm;
    assert IsBlank(EmptyForm.title);
    assert Trim(EmptyForm.title) == [];
  }

  /**
   * Opening the form on a stored task and submitting it unchanged sends the
   * task's own title and description back (an empty description becomes
   * absent), with the due date reduced to its calendar date.
   */
  lemma PrefillThenSubmit(t: Task, isPast: string -> bool)
    requires Valid(t)
    requires t.dueDate.Some? ==> !isPast(DatePart(t.dueDate.value))
    ensures var date := if t.dueDate.Some? && t.dueDate.value != "" then DatePart(t.dueDate.value) else "";
      HandleSubmit(Prefill(Some(t)).data, isPast)
        == Some(Submission(t.title,
                           if t.description == Some("") then None else t.description,
                           if date == "" then None else Some(date)))
  {
    var date := if t.dueDate.Some? && t.dueDate.value != "" then DatePart(t.dueDate.value) else "";
    var fd := Prefill(Some(t)).data;
    assert fd == FormData(t.title, OrElse(t.description, ""), date);
    SubmitUnchanged(fd, isPast);
  }

  /** A form whose fields are already trimmed and within bounds is submitted as it stands. */
  lemma SubmitUnchanged(fd: FormData, isPast: string -> bool)
    requires IsTrimmed(fd.title) && fd.title != [] && |fd.title| <= MaxTitleLength
    requires IsTrimmed(fd.description) && |fd.description| <= MaxDescriptionLength
    requires fd.dueDate == "" || !isPast(fd.dueDate)
    ensures HandleSubmit(fd, isPast)
              == Some(Submission(fd.title,
                                 if fd.description == "" then None else Some(fd.description),
                                 if fd.dueDate == "" then None else Some(fd.dueDate)))
  {
    assert !IsBlank(fd.title) by { assert !IsWhitespace(fd.title[0]); }
    assert fd.description != "" ==> !IsBlank(fd.description) by {
      if fd.description != "" { assert !IsWhitespace(fd.description[0]); }
    }
    var r := HandleSubmit(fd, isPast);
    assert r.Some?;
    TrimOfTrimmed(fd.title);
    TrimOfTrimmed(fd.description);
    assert r.value.title == fd.title;
    assert r.value.description == if fd.description == "" then None else Some(fd.description);
  }

  /** The request body `onSubmit` leads to: fields left `undefined` are dropped by `JSON.stringify`. */
  function RequestBody(s: Submission): (b: TasksRoute.CreateBody)
    ensures b.title == Some(TasksRoute.JStr(s.title))
    ensures b.description.Some? <==> s.description.Some?
    ensures s.description.Some? ==> b.description == Some(TasksRoute.JStr(s.description.value))
    ensures b.dueDate == s.dueDate
  {
    TasksRoute.CreateBody(Some(TasksRoute.JStr(s.title)),
                          if s.description.Some? then Some(TasksRoute.JStr(s.description.value)) else None,
                          s.dueDate)
  }

  /**
   * Whatever the form lets through, the collection endpoint accepts: the
   * created task carries exactly the submitted title, description and due
   * date, for any owner id the store can cast and a save that succeeds.
   */
  lemma SubmissionAccepted(fd: FormData, isPast: string -> bool, owner: string, newId: string, now: int)
    requires HandleSubmit(fd, isPast).Some?
    requires IsObjectIdText(owner)
    ensures var s := HandleSubmit(fd, isPast).value;
      var r := TasksRoute.Create(RequestBody(s), owner, newId, now, true);
      && r.status == 201
      && r.body.task.title == s.title
      && r.body.task.description == s.description
      && r.body.task.dueDate == s.dueDate
  {
    var s := HandleSubmit(fd, isPast).value;
    var b := RequestBody(s);
    assert !IsBlank(s.title) by { assert !IsWhitespace(s.title[0]); }
    assert TasksRoute.BodyAcceptable(b);
    var r := TasksRoute.Create(b, owner, newId, now, true);
    assert r.status == 201;
    TrimOfTrimmed(s.title);
    assert r.body.task.title == s.title;
    if s.description.Some? {
      TrimOfTrimmed(s.description.value);
    }
    assert r.body.task.description == s.description;
  }
}

=== FILE: task_model.dfy ===
/**
 * The task record of `src/models/Task.ts`: the three statuses and their
 * wire names, the schema's trim setters and default, and the validators the
 * document store runs before saving.
 */
module TaskModel {
  import opened Common

  /** `TaskStatus`: exactly three values. */
  datatype TaskStatus = Todo | InProgress | Done

  /** The schema default for `status`. */
  const DefaultStatus: TaskStatus := Todo

  const MaxTitleLength: nat := 100
  const MaxDescriptionLength: nat := 500

  const TitleRequired: string := "Title is required"
  const TitleTooLong: string := "Title cannot be more than 100 characters"
  const DescriptionTooLong: string := "Description cannot be more than 500 characters"
  const OwnerRequired: string := "Path `userId` is required."
  const OwnerNotObjectId: string := "Cast to ObjectId failed at path `userId`"

  /** The string stored for a status (the schema's `enum` list). */
  function StatusName(st: TaskStatus): string {
    match st
    case Todo => "todo"
    case InProgress => "in-progress"
    case Done => "done"
  }

  /** Reads a status from its wire name; every other string is not a status. */
  function ParseStatus(s: string): (r: Option<TaskStatus>)
    ensures r.Some? <==> s == "todo" || s == "in-progress" || s == "done"
    ensures r.Some? ==> StatusName(r.value) == s
  {
    if s == "todo" then Some(Todo)
    else if s == "in-progress" then Some(InProgress)
    else if s == "done" then Some(Done)
    else None
  }

  /** The wire names are distinct, so every status survives a round trip. */
  lemma StatusRoundTrip(st: TaskStatus)
    ensures ParseStatus(StatusName(st)) == Some(st)
  {
  }

  /**
   * A task document. `id`, `createdAt` and `updatedAt` are assigned by the
   * store; `dueDate` is kept as the text of the date; `userId` is the owner.
   */
  datatype Task = Task(
    id: string,
    title: string,
    description: Option<string>,
    status: TaskStatus,
    dueDate: Option<string>,
    userId: string,
    createdAt: int,
    updatedAt: int)

  /** A hexadecimal digit, in either case. */
  predicate IsHexDigit(c: char) {
    '0' <= c <= '9' || 'a' <= c <= 'f' || 'A' <= c <= 'F'
  }

  /**
   * Text the `ObjectId` cast of the `userId` path accepts: exactly 24
   * hexadecimal digits. Any other text makes the cast throw, on save and in
   * a query alike.
   */
  predicate IsObjectIdText(s: string) {
    |s| == 24 && forall i :: 0 <= i < |s| ==> IsHexDigit(s[i])
  }

  /** What the schema's validators accept: required title, an `ObjectId` owner, length bounds. */
  predicate SchemaAccepts(t: Task) {
    && 0 < |t.title| <= MaxTitleLength
    && (t.description.Some? ==> |t.description.value| <= MaxDescriptionLength)
    && IsObjectIdText(t.userId)
  }

  /** A stored task: accepted by the validators, with the trimmed fields trimmed. */
  predicate Valid(t: Task) {
    && SchemaAccepts(t)
    && IsTrimmed(t.title)
    && (t.description.Some? ==> IsTrimmed(t.description.value))
  }

  /**
   * `new Task({...})`: the `trim` setters run on title and description and
   * the status takes its default; nothing else is touched.
   */
  function NewDocument(id: string, title: string, description: Option<string>,
                       dueDate: Option<string>, userId: string, now: int): (t: Task)
    ensures t.status == DefaultStatus
    ensures IsTrimmed(t.title) && |t.title| <= |title|
    ensures t.description.None? <==> description.None?
    ensures t.description.Some? ==>
              IsTrimmed(t.description.value) && |t.description.value| <= |description.value|
    ensures t.id == id && t.dueDate == dueDate && t.userId == userId
    ensures t.title == [] <==> IsBlank(title)
    ensures t.title == Trim(title)
    ensures t.description == (if description.Some? then Some(Trim(description.value)) else None)
    ensures t.createdAt == t.updatedAt == now
  {
    Task(id, Trim(title), if description.Some? then Some(Trim(description.value)) else None,
         DefaultStatus, dueDate, userId, now, now)
  }

  /**
   * The validation the store runs on save: the first failing validator in
   * schema path order, or `None` when the document is accepted.
   */
  function ValidationError(t: Task): (r: Option<string>)
    ensures r.None? <==> SchemaAccepts(t)
    ensures r == Some(TitleRequired) <==> t.title == []
    ensures r == Some(TitleTooLong) <==> |t.title| > MaxTitleLength
    ensures r == Some(DescriptionTooLong) <==>
              && 0 < |t.title| <= MaxTitleLength
              && t.description.Some? && |t.description.value| > MaxDescriptionLength
    ensures r == Some(OwnerRequired) <==>
              && 0 < |t.title| <= MaxTitleLength
              && (t.description.Some? ==> |t.description.value| <= MaxDescriptionLength)
              && t.userId == ""
    ensures r == Some(OwnerNotObjectId) <==>
              && 0 < |t.title| <= MaxTitleLength
              && (t.description.Some? ==> |t.description.value| <= MaxDescriptionLength)
              && t.userId != "" && !IsObjectIdText(t.userId)
  {
    if t.title == [] then Some(TitleRequired)
    else if |t.title| > MaxTitleLength then Some(TitleTooLong)
    else if t.description.Some? && |t.description.value| > MaxDescriptionLength then Some(DescriptionTooLong)
    else if t.userId == "" then Some(OwnerRequired)
    else if !IsObjectIdText(t.userId) then Some(OwnerNotObjectId)
    else None
  }

  /** Every document built through the setters and accepted on save is a valid task. */
  lemma SavedDocumentValid(id: string, title: string, description: Option<string>,
                           dueDate: Option<string>, userId: string, now: int)
    requires ValidationError(NewDocument(id, title, description, dueDate, userId, now)).None?
    ensures Valid(NewDocument(id, title, description, dueDate, userId, now))
    ensures NewDocument(id, title, description, dueDate, userId, now).status == Todo
  {
  }
}

=== FILE: tasks_route.dfy ===
/**
 * The collection endpoint of `src/app/api/tasks/route.ts`: listing the
 * caller's tasks (`GET`) and creating one (`POST`). Both handlers connect to
 * the store, pass the authentication gate, and only then look at the query
 * or the body. Every exception the handler catches becomes a 500.
 *
 * The store is abstract: whether the connection, the query and the save
 * succeed are parameters, the listing is the built query and sort plus the
 * stored tasks the query selects, and the created document is the one the
 * schema builds.
 */
module TasksRoute {
  import opened Common
  import opened TaskModel
  import opened AuthLib

  const NoTokenMessage: string := "No token provided"
  const InvalidTokenMessage: string := "Invalid token"
  const ServerErrorMessage: string := "Internal server error"
  const ListedMessage: string := "Tasks retrieved successfully"
  const CreatedMessage: string := "Task created successfully"

  /**
   * A JSON value as far as the handler inspects it: its truthiness, whether
   * it is a string, and its `length` property. Strings and arrays have their
   * own length; an object has a `length` only when it carries such a member,
   * kept here when that member is a number.
   */
  datatype Json =
    | JNull
    | JBool(b: bool)
    | JNum(n: int)
    | JStr(s: string)
    | JArr(count: nat)
    | JObj(length: Option<int>)

  /** JavaScript truthiness of an optional JSON value; an absent field is `undefined`. */
  predicate Truthy(v: Option<Json>) {
    match v
    case None => false
    case Some(j) =>
      match j
      case JNull => false
      case JBool(b) => b
      case JNum(n) => n != 0
      case JStr(s) => s != ""
      case JArr(_) => true
      case JObj(_) => true
  }

  /**
   * The `length` property as a number: a string's or array's length, an
   * object's numeric `length` member, and `undefined` otherwise (`undefined >
   * 500` is false).
   */
  function JsonLength(j: Json): (r: Option<int>)
    ensures j.JStr? ==> r == Some(|j.s|)
    ensures j.JArr? ==> r == Some(j.count)
    ensures j.JObj? ==> r == j.length
    ensures j.JNull? || j.JBool? || j.JNum? ==> r.None?
  {
    match j
    case JStr(s) => Some(|s|)
    case JArr(n) => Some(n)
    case JObj(len) => len
    case _ => None
  }

  /** The fields `POST` destructures from the parsed body. */
  datatype CreateBody = CreateBody(title: Option<Json>, description: Option<Json>, dueDate: Option<string>)

  /** The store query: the owner, and a status when one was asked for. */
  datatype Query = Query(userId: string, status: Option<TaskStatus>)

  /** The sort object: one field and a direction, `-1` descending or `1` ascending. */
  datatype Sort = Sort(field: string, direction: int)

  datatype Body =
    | NoBody
    | Listing(query: Query, sort: Sort, tasks: seq<Task>)
    | Created(task: Task)

  datatype Response = Response(status: int, message: string, body: Body)

  const ServerError: Response := Response(500, ServerErrorMessage, NoBody)

  /** `searchParams.get(key)`. */
  function Param(params: map<string, string>, key: string): Option<string> {
    if key in params then Some(params[key]) else None
  }

  /**
   * The query of `GET`: always scoped to the caller, filtered by status only
   * when the `status` parameter names one of the three statuses.
   */
  function BuildQuery(userId: string, params: map<string, string>): (q: Query)
    ensures q.userId == userId
    ensures q.status.Some? <==>
              "status" in params && params["status"] in {"todo", "in-progress", "done"}
    ensures q.status.Some? ==> StatusName(q.status.value) == params["status"]
  {
    var status := Param(params, "status");
    if status.Some? && status.value != "" then Query(userId, ParseStatus(status.value))
    else Query(userId, None)
  }

  /**
   * The sort of `GET`: the field defaults to `createdAt`, and the order is
   * descending exactly when `sortOrder` is `desc` or missing.
   */
  function BuildSort(params: map<string, string>): (s: Sort)
    ensures s.direction == -1 || s.direction == 1
    ensures s.direction == -1 <==>
              "sortOrder" !in params || params["sortOrder"] == "" || params["sortOrder"] == "desc"
    ensures s.field == (if "sortBy" in params && params["sortBy"] != "" then params["sortBy"] else "createdAt")
  {
    var field := OrElse(Param(params, "sortBy"), "createdAt");
    var order := OrElse(Param(params, "sortOrder"), "desc");
    Sort(field, if order == "desc" then -1 else 1)
  }

  /** A stored task matches the query: same owner, and the asked-for status if any. */
  predicate Matches(q: Query, t: Task) {
    t.userId == q.userId && (q.status.Some? ==> t.status == q.status.value)
  }

  /**
   * `Task.find(query)`: the stored tasks that match, in store order (the
   * sort the store applies afterwards is not modelled).
   */
  function Select(store: seq<Task>, q: Query): (r: seq<Task>)
    ensures forall i :: 0 <= i < |r| ==> Matches(q, r[i])
    ensures forall t :: t in store && Matches(q, t) ==> t in r
    ensures IsSubsequence(r, store)
  {
    if store == [] then []
    else if Matches(q, store[0]) then [store[0]] + Select(store[1..], q)
    else Select(store[1..], q)
  }

  /**
   * `GET /api/tasks`. A failed connection or query is a 500, and so is a
   * caller id the `ObjectId` cast of the query refuses; a missing or
   * rejected token is a 401 decided before any parameter is read.
   */
  function Get(req: Request, jwtVerify: string -> JwtResult, connected: bool,
               store: seq<Task>, findOk: bool): (r: Response)
    ensures r.status in {200, 401, 500}
    ensures r.status == 200 <==>
              && connected && findOk && Authenticate(req, jwtVerify).Authenticated?
              && IsObjectIdText(Authenticate(req, jwtVerify).payload.userId)
    ensures r.status == 200 ==>
              var p := Authenticate(req, jwtVerify).payload;
              r.body.Listing? && r.body.query == BuildQuery(p.userId, req.query)
              && r.body.sort == BuildSort(req.query)
              && r.body.tasks == Select(store, r.body.query)
              && (forall i :: 0 <= i < |r.body.tasks| ==> r.body.tasks[i].userId == p.userId)
  {
    if !connected then ServerError
    else
      match Authenticate(req, jwtVerify)
      case NoToken => Response(401, NoTokenMessage, NoBody)
      case InvalidToken => Response(401, InvalidTokenMessage, NoBody)
      case Authenticated(p) =>
        var q := BuildQuery(p.userId, req.query);
        if !findOk || !IsObjectIdText(p.userId) then ServerError
        else Response(200, ListedMessage, Listing(q, BuildSort(req.query), Select(store, q)))
  }

  /**
   * `description?.trim()`: absent for an absent or null description, the
   * trimmed text for a string, and `None` when the call throws (any other
   * value has no `trim` method).
   */
  function TrimmedDescription(v: Option<Json>): (r: Option<Option<string>>)
    ensures r == Some(None) <==> v.None? || v == Some(JNull)
    ensures r.Some? && r.value.Some? <==> v.Some? && v.value.JStr?
    ensures r.Some? && r.value.Some? ==> r.value.value == Trim(v.value.s)
  {
    match v
    case None => Some(None)
    case Some(JNull) => Some(None)
    case Some(JStr(s)) => Some(Some(Trim(s)))
    case Some(_) => None
  }

  /** `dueDate ? new Date(dueDate) : undefined`, keeping the date as text. */
  function DueDate(d: Option<string>): (r: Option<string>)
    ensures r.Some? <==> d.Some? && d.value != ""
    ensures r.Some? ==> r == d
  {
    if d.Some? && d.value != "" then d else None
  }

  /**
   * What the checks of `POST` let through, stated independently of their
   * order: a non-blank string title of at most 100 characters as sent, and
   * a description that is absent, null, or a string of at most 500
   * characters as sent.
   */
  predicate BodyAcceptable(b: CreateBody) {
    && b.title.Some? && b.title.value.JStr?
    && !IsBlank(b.title.value.s) && |b.title.value.s| <= MaxTitleLength
    && (b.description.None? || b.description.value.JNull?
        || (b.description.value.JStr? && |b.description.value.s| <= MaxDescriptionLength))
  }

  /** The title passes the first two checks: a non-blank string of at most 100 characters as sent. */
  predicate TitlePasses(b: CreateBody) {
    b.title.Some? && b.title.value.JStr? && !IsBlank(b.title.value.s) && |b.title.value.s| <= MaxTitleLength
  }

  /** `description && description.length > 500`. */
  predicate DescriptionOverLong(b: CreateBody) {
    Truthy(b.description) && JsonLength(b.description.value).Some?
    && JsonLength(b.description.value).value > MaxDescriptionLength
  }

  /**
   * The checks of `POST` in order (title required, title length,
   * description length, all on the text as sent), and the `trim` calls that
   * throw on a non-string; `None` when the body passes.
   */
  function Refusal(b: CreateBody): (r: Option<Response>)
    ensures r.None? <==> BodyAcceptable(b)
    ensures r.Some? ==> r.value.status in {400, 500} && r.value.body.NoBody?
    ensures r.Some? && r.value.status == 400 ==>
              r.value.message in {TitleRequired, TitleTooLong, DescriptionTooLong}
    ensures r == Some(Response(400, TitleRequired, NoBody)) <==>
              !Truthy(b.title) || (b.title.value.JStr? && IsBlank(b.title.value.s))
    ensures r == Some(Response(400, TitleTooLong, NoBody)) <==>
              b.title.Some? && b.title.value.JStr? && !IsBlank(b.title.value.s)
              && |b.title.value.s| > MaxTitleLength
    ensures r == Some(Response(400, DescriptionTooLong, NoBody)) <==> TitlePasses(b) && DescriptionOverLong(b)
    // a 500 comes from calling `trim` on something that is not a string
    ensures r == Some(ServerError) <==>
              || (Truthy(b.title) && !b.title.value.JStr?)
              || (TitlePasses(b) && !DescriptionOverLong(b) && TrimmedDescription(b.description).None?)
  {
    if !Truthy(b.title) then Some(Response(400, TitleRequired, NoBody))
    else if !b.title.value.JStr? then Some(ServerError)
    else if Trim(b.title.value.s) == [] then Some(Response(400, TitleRequired, NoBody))
    else if |b.title.value.s| > MaxTitleLength then Some(Response(400, TitleTooLong, NoBody))
    else if Truthy(b.description) && JsonLength(b.description.value).Some?
            && JsonLength(b.description.value).value > MaxDescriptionLength then
      Some(Response(400, DescriptionTooLong, NoBody))
    else if TrimmedDescription(b.description).None? then Some(ServerError)
    else None
  }

  /**
   * `new Task({...})` for a body that passed the checks: the trimmed title,
   * the trimmed description, the due date, and the caller as owner. The
   * schema accepts it exactly when the owner is `ObjectId` text.
   */
  function Document(b: CreateBody, owner: string, newId: string, now: int): (t: Task)
    requires BodyAcceptable(b)
    ensures t.title == Trim(b.title.value.s)
    ensures t.description == (if b.description.Some? && b.description.value.JStr?
                              then Some(Trim(b.description.value.s)) else None)
    ensures t.dueDate == DueDate(b.dueDate) && t.userId == owner && t.id == newId
    ensures t.status == Todo
    ensures ValidationError(t).None? <==> IsObjectIdText(owner)
    ensures IsObjectIdText(owner) ==> Valid(t)
  {
    var title := Trim(b.title.value.s);
    var desc := TrimmedDescription(b.description).value;
    assert title != [];
    DocumentOfTrimmed(title, desc, DueDate(b.dueDate), owner, newId, now);
    NewDocument(newId, title, desc, DueDate(b.dueDate), owner, now)
  }

  /**
   * The body of `POST` once the caller is known: the checks, then the
   * document, then the save; the schema's refusal and a failed save are
   * both exceptions, so 500s.
   */
  function Create(b: CreateBody, owner: string, newId: string, now: int, saveOk: bool): (r: Response)
    ensures r.status in {201, 400, 500}
    ensures r.status == 201 <==> BodyAcceptable(b) && IsObjectIdText(owner) && saveOk
    ensures r.status == 201 ==>
              && r.body.Created? && Valid(r.body.task) && r.body.task.status == Todo
              && r.body.task.userId == owner && r.body.task.id == newId
              && r.body.task.title == Trim(b.title.value.s)
              && r.body.task.description == (if b.description.Some? && b.description.value.JStr?
                                            then Some(Trim(b.description.value.s)) else None)
              && r.body.task.dueDate == DueDate(b.dueDate)
    ensures r.status == 400 ==> r.message in {TitleRequired, TitleTooLong, DescriptionTooLong}
  {
    match Refusal(b)
    case Some(refused) => refused
    case None =>
      var doc := Document(b, owner, newId, now);
      if ValidationError(doc).Some? || !saveOk then ServerError
      else Response(201, CreatedMessage, Created(doc))
  }

  /**
   * `POST /api/tasks`. `body` is `None` when the body is not JSON or is
   * `null` (destructuring throws); both are 500s, like a failed connection.
   */
  function Post(req: Request, jwtVerify: string -> JwtResult, connected: bool,
                body: Option<CreateBody>, newId: string, now: int, saveOk: bool): (r: Response)
    ensures r.status in {201, 400, 401, 500}
    ensures r.status == 201 ==>
              Authenticate(req, jwtVerify).Authenticated? && r.body.Created?
              && r.body.task.userId == Authenticate(req, jwtVerify).payload.userId
    ensures !connected ==> r == ServerError
    // once the caller is known, the body alone decides, through the checks and the save
    ensures connected && Authenticate(req, jwtVerify).Authenticated? ==>
              r == (if body.None? then ServerError
                    else Create(body.value, Authenticate(req, jwtVerify).payload.userId, newId, now, saveOk))
    ensures r.status == 201 <==>
              && connected && Authenticate(req, jwtVerify).Authenticated? && body.Some?
              && BodyAcceptable(body.value) && IsObjectIdText(Authenticate(req, jwtVerify).payload.userId)
              && saveOk
    ensures r.status == 400 ==> body.Some? && Refusal(body.value) == Some(r)
  {
    if !connected then ServerError
    else
      match Authenticate(req, jwtVerify)
      case NoToken => Response(401, NoTokenMessage, NoBody)
      case InvalidToken => Response(401, InvalidTokenMessage, NoBody)
      case Authenticated(p) =>
        if body.None? then ServerError
        else Create(body.value, p.userId, newId, now, saveOk)
  }

  /**
   * The authentication gate comes first in both handlers: once connected,
   * a request without a usable token is a 401 whatever its query or body,
   * and a 401 means exactly that the gate refused.
   */
  lemma AuthGateFirst(req: Request, v: string -> JwtResult, store: seq<Task>, findOk: bool,
                      body: Option<CreateBody>, newId: string, now: int, saveOk: bool)
    requires !Authenticate(req, v).Authenticated?
    ensures var msg := if Authenticate(req, v).NoToken? then NoTokenMessage else InvalidTokenMessage;
      && Get(req, v, true, store, findOk) == Response(401, msg, NoBody)
      && Post(req, v, true, body, newId, now, saveOk) == Response(401, msg, NoBody)
  {
  }

  /** A 401 from either handler means the gate refused the request. */
  lemma UnauthorizedMeansRefused(req: Request, v: string -> JwtResult, connected: bool, store: seq<Task>,
                                 findOk: bool, body: Option<CreateBody>, newId: string, now: int, saveOk: bool)
    ensures Get(req, v, connected, store, findOk).status == 401 <==> connected && !Authenticate(req, v).Authenticated?
    ensures Post(req, v, connected, body, newId, now, saveOk).status == 401 <==>
              connected && !Authenticate(req, v).Authenticated?
  {
  }

  /**
   * Every listed task is a stored task of the caller, with the asked-for
   * status when one was named; every stored task of the caller with that
   * status is listed, and without a filter every stored task of the caller.
   */
  lemma ListingIsOwnerScoped(req: Request, v: string -> JwtResult, store: seq<Task>, t: Task)
    requires Get(req, v, true, store, true).status == 200
    ensures var p := Authenticate(req, v).payload;
      var listed := Get(req, v, true, store, true).body.tasks;
      && (t in listed ==> t in store && t.userId == p.userId)
      && (t in listed && "status" in req.query && req.query["status"] in {"todo", "in-progress", "done"} ==>
            StatusName(t.status) == req.query["status"])
      && ((t in store && t.userId == p.userId && "status" in req.query && StatusName(t.status) == req.query["status"])
            ==> t in listed)
      && (t in store && t.userId == p.userId && "status" !in req.query ==> t in listed)
  {
    var p := Authenticate(req, v).payload;
    var q := BuildQuery(p.userId, req.query);
    var listed := Select(store, q);
    if t in listed {
      SubsequenceMembers(listed, store);
      var i :| 0 <= i < |listed| && listed[i] == t;
      assert Matches(q, listed[i]);
      var m :| 0 <= m < |store| && store[m] == listed[i];
    }
  }

  /** Already-trimmed fields within the bounds pass through the setters unchanged; only the owner can fail the schema. */
  lemma DocumentOfTrimmed(t: string, d: Option<string>, due: Option<string>,
                          owner: string, newId: string, now: int)
    requires IsTrimmed(t) && t != [] && |t| <= MaxTitleLength
    requires d.Some? ==> IsTrimmed(d.value) && |d.value| <= MaxDescriptionLength
    ensures var doc := NewDocument(newId, t, d, due, owner, now);
      && doc.title == t && doc.description == d
      && (ValidationError(doc).None? <==> IsObjectIdText(owner)) && (IsObjectIdText(owner) ==> Valid(doc))
  {
    TrimOfTrimmed(t);
    if d.Some? {
      TrimOfTrimmed(d.value);
    }
  }

  /**
   * The validation order: the first failing check decides the message, so
   * a missing title hides an overlong description, and an overlong title
   * hides one too.
   */
  lemma ValidationOrder(b: CreateBody, owner: string, newId: string, now: int, saveOk: bool)
    ensures var r := Create(b, owner, newId, now, saveOk);
      && (r == Response(400, TitleRequired, NoBody) <==>
            !Truthy(b.title) || (b.title.value.JStr? && IsBlank(b.title.value.s)))
      && (r == Response(400, TitleTooLong, NoBody) <==>
            b.title.Some? && b.title.value.JStr? && !IsBlank(b.title.value.s)
            && |b.title.value.s| > MaxTitleLength)
      && (r == Response(400, DescriptionTooLong, NoBody) <==> TitlePasses(b) && DescriptionOverLong(b))
      && (r == ServerError <==>
            || (Truthy(b.title) && !b.title.value.JStr?)
            || (TitlePasses(b) && !DescriptionOverLong(b) && TrimmedDescription(b.description).None?)
            || (BodyAcceptable(b) && (!IsObjectIdText(owner) || !saveOk)))
  {
  }

  /**
   * An object description with a numeric `length` member over 500 is refused
   * by the length check, before `trim` is ever called on it.
   */
  lemma ObjectLengthCounts(owner: string, newId: string, now: int, saveOk: bool)
    ensures Create(CreateBody(Some(JStr("a")), Some(JObj(Some(501))), None), owner, newId, now, saveOk)
         == Response(400, DescriptionTooLong, NoBody)
    ensures Create(CreateBody(Some(JStr("a")), Some(JObj(Some(500))), None), owner, newId, now, saveOk)
         == ServerError
  {
    assert !IsBlank("a") by { assert !IsWhitespace("a"[0]); }
  }

  /**
   * The length checks run on the text as sent, before trimming: a title
   * whose trimmed form fits is still refused when its padding pushes it
   * past 100 characters.
   */
  lemma UntrimmedTitleLengthCounts(b: CreateBody, owner: string, newId: string, now: int, saveOk: bool)
    requires b.title == Some(JStr(seq(100, i => 'a') + [' ']))
    ensures |Trim(b.title.value.s)| <= MaxTitleLength
    ensures Create(b, owner, newId, now, saveOk) == Response(400, TitleTooLong, NoBody)
  {
    var s := seq(100, i => 'a') + [' '];
    assert s[0] == 'a' && !IsWhitespace(s[0]);
    assert !IsBlank(s);
  }

  /**
   * The route's own checks leave the schema only one thing to refuse: an
   * owner id in the token that is not `ObjectId` text (empty, or `u1`, say),
   * which surfaces as a 500 from the save.
   */
  lemma SchemaOnlyRefusesOwner(b: CreateBody, newId: string, now: int, saveOk: bool)
    requires Refusal(b).None?
    ensures Create(b, "", newId, now, saveOk) == ServerError
    ensures Create(b, "u1", newId, now, saveOk) == ServerError
    ensures forall owner :: !IsObjectIdText(owner) ==> Create(b, owner, newId, now, saveOk) == ServerError
    ensures forall owner :: IsObjectIdText(owner) ==> ValidationError(Document(b, owner, newId, now)).None?
  {
  }
}

=== FILE: tasks_slice.dfy ===
/**
 * The client-side task cache of `src/store/slices/tasksSlice.ts`: an
 * ordered list of tasks, a loading flag, an error slot and a selected task,
 * changed by plain reducers (some fed by socket events) and by the pending,
 * fulfilled and rejected outcomes of the five request thunks. The thunks
 * themselves are network calls; only the actions they dispatch are modelled.
 */
module TasksSlice {
  import opened Common
  import opened TaskModel

  datatype State = State(tasks: seq<Task>, loading: bool, error: Option<string>, selected: Option<Task>)

  /** `initialState`. */
  const Initial: State := State([], false, None, None)

  /** The five request thunks. */
  datatype Op = FetchTasks | CreateTask | UpdateTask | DeleteTask | FetchTaskById

  /** The error recorded when a rejected request carries no message. */
  function DefaultError(op: Op): string {
    match op
    case FetchTasks => "Failed to fetch tasks"
    case CreateTask => "Failed to create task"
    case UpdateTask => "Failed to update task"
    case DeleteTask => "Failed to delete task"
    case FetchTaskById => "Failed to fetch task"
  }

  datatype Action =
    | ClearError
    | ClearTasks
    | SetSelectedTask(choice: Option<Task>)
    | UpdateTaskFromSocket(task: Task)
    | AddTaskFromSocket(task: Task)
    | RemoveTaskFromSocket(taskId: string)
    | Pending(op: Op)
    | FetchTasksFulfilled(list: seq<Task>)
    | CreateTaskFulfilled(task: Task)
    | UpdateTaskFulfilled(task: Task)
    | DeleteTaskFulfilled(taskId: string)
    | FetchTaskByIdFulfilled(task: Task)
    | Rejected(op: Op, payload: Option<string>)

  /** The fulfilled outcomes of the five requests. */
  predicate IsFulfilled(a: Action) {
    a.FetchTasksFulfilled? || a.CreateTaskFulfilled? || a.UpdateTaskFulfilled? ||
    a.DeleteTaskFulfilled? || a.FetchTaskByIdFulfilled?
  }

  /** The plain reducers, as opposed to request outcomes. */
  predicate IsPlainReducer(a: Action) {
    a.ClearError? || a.ClearTasks? || a.SetSelectedTask? ||
    a.UpdateTaskFromSocket? || a.AddTaskFromSocket? || a.RemoveTaskFromSocket?
  }

  predicate HasId(ts: seq<Task>, id: string) {
    exists i :: 0 <= i < |ts| && ts[i].id == id
  }

  /** `k` is the position of the first task with this id. */
  predicate IsFirstWithId(ts: seq<Task>, id: string, k: int) {
    0 <= k < |ts| && ts[k].id == id && forall j :: 0 <= j < k ==> ts[j].id != id
  }

  /** No two tasks of the list share an id. */
  predicate DistinctIds(ts: seq<Task>) {
    forall i, j :: 0 <= i < j < |ts| ==> ts[i].id != ts[j].id
  }

  /** `Array.prototype.findIndex` on ids: the first position with the id, or -1. */
  function FindIndex(ts: seq<Task>, id: string): (r: int)
    ensures -1 <= r < |ts|
    ensures r == -1 <==> !HasId(ts, id)
    ensures r != -1 ==> IsFirstWithId(ts, id, r)
  {
    if ts == [] then -1
    else if ts[0].id == id then 0
    else
      var k := FindIndex(ts[1..], id);
      assert HasId(ts, id) ==> HasId(ts[1..], id) by {
        if HasId(ts, id) {
          var i :| 0 <= i < |ts| && ts[i].id == id;
          assert ts[1..][i - 1].id == id;
        }
      }
      if k == -1 then -1 else k + 1
  }

  /**
   * `tasks[findIndex(...)] = task` when the index is found: the first task
   * with the same id is replaced and every other position keeps its task;
   * without such a task the list is unchanged.
   */
  function ReplaceFirst(ts: seq<Task>, t: Task): (r: seq<Task>)
    ensures |r| == |ts|
    ensures !HasId(ts, t.id) ==> r == ts
    ensures forall k {:trigger IsFirstWithId(ts, t.id, k)} :: IsFirstWithId(ts, t.id, k) ==>
              r[k] == t && forall i :: 0 <= i < |ts| && i != k ==> r[i] == ts[i]
    ensures forall i :: 0 <= i < |ts| ==> r[i].id == ts[i].id
  {
    var k := FindIndex(ts, t.id);
    if k == -1 then ts else ts[k := t]
  }

  /**
   * `tasks.filter(task => task._id !== id)`: no task with the id is left,
   * the others all stay, in their order, and the list shrinks exactly when
   * the id was present.
   */
  function RemoveById(ts: seq<Task>, id: string): (r: seq<Task>)
    ensures forall i :: 0 <= i < |r| ==> r[i].id != id
    ensures forall i :: 0 <= i < |ts| && ts[i].id != id ==> ts[i] in r
    ensures IsSubsequence(r, ts)
    ensures |r| <= |ts|
    ensures |r| < |ts| <==> HasId(ts, id)
  {
    if ts == [] then []
    else
      var rest := RemoveById(ts[1..], id);
      assert HasId(ts, id) <==> ts[0].id == id || HasId(ts[1..], id) by {
        if HasId(ts, id) && ts[0].id != id {
          var i :| 0 <= i < |ts| && ts[i].id == id;
          assert ts[1..][i - 1].id == id;
        }
        if HasId(ts[1..], id) {
          var i :| 0 <= i < |ts[1..]| && ts[1..][i].id == id;
          assert ts[i + 1].id == id;
        }
      }
      assert forall i :: 1 <= i < |ts| ==> ts[i] == ts[1..][i - 1];
      if ts[0].id == id then
        assert IsSubsequence(rest, ts[1..]);
        rest
      else
        var r := [ts[0]] + rest;
        assert r[1..] == rest;
        r
  }

  /**
   * The filter keeps every copy of every other task: each task without the
   * id occurs in the result exactly as often as in the list, so identical
   * duplicates survive together.
   */
  lemma {:induction false} RemoveKeepsCounts(ts: seq<Task>, id: string)
    ensures forall u: Task :: multiset(RemoveById(ts, id))[u] == if u.id == id then 0 else multiset(ts)[u]
  {
    if ts != [] {
      var rest := RemoveById(ts[1..], id);
      RemoveKeepsCounts(ts[1..], id);
      assert multiset(ts) == multiset{ts[0]} + multiset(ts[1..]) by { assert ts == [ts[0]] + ts[1..]; }
      if ts[0].id != id {
        assert multiset(RemoveById(ts, id)) == multiset{ts[0]} + multiset(rest) by {
          assert RemoveById(ts, id) == [ts[0]] + rest;
        }
      }
    }
  }

  /** The reducer. */
  function Reduce(s: State, a: Action): (r: State)
    // loading is set by a pending request, cleared by its outcome, and left alone otherwise
    ensures r.loading == (a.Pending? || (IsPlainReducer(a) && s.loading))
    // an error can only come from a rejected request, or be kept from before
    ensures r.error.Some? ==> a.Rejected? || r.error == s.error
    ensures a.Rejected? ==> r.error.Some? && r.error.value != ""
    // the list only changes through list payloads, socket events and fulfilled mutations
    ensures r.tasks != s.tasks ==>
              a.ClearTasks? || a.UpdateTaskFromSocket? || a.AddTaskFromSocket? ||
              a.RemoveTaskFromSocket? || a.FetchTasksFulfilled? || a.CreateTaskFulfilled? ||
              a.UpdateTaskFulfilled? || a.DeleteTaskFulfilled?
    // only a fetch-all can grow the list by more than one
    ensures !a.FetchTasksFulfilled? ==> |r.tasks| <= |s.tasks| + 1
  {
    match a
    case ClearError => s.(error := None)
    case ClearTasks => s.(tasks := [], selected := None, error := None)
    case SetSelectedTask(choice) => s.(selected := choice)
    case UpdateTaskFromSocket(t) => s.(tasks := ReplaceFirst(s.tasks, t))
    case AddTaskFromSocket(t) => s.(tasks := [t] + s.tasks)
    case RemoveTaskFromSocket(id) => s.(tasks := RemoveById(s.tasks, id))
    case Pending(_) => s.(loading := true, error := None)
    case FetchTasksFulfilled(list) => s.(loading := false, tasks := list, error := None)
    case CreateTaskFulfilled(t) => s.(loading := false, tasks := [t] + s.tasks, error := None)
    case UpdateTaskFulfilled(t) =>
      s.(loading := false,
         tasks := ReplaceFirst(s.tasks, t),
         selected := if s.selected.Some? && s.selected.value.id == t.id then Some(t) else s.selected,
         error := None)
    case DeleteTaskFulfilled(id) =>
      s.(loading := false,
         tasks := RemoveById(s.tasks, id),
         selected := if s.selected.Some? && s.selected.value.id == id then None else s.selected,
         error := None)
    case FetchTaskByIdFulfilled(t) => s.(loading := false, selected := Some(t), error := None)
    case Rejected(op, payload) => s.(loading := false, error := Some(OrElse(payload, DefaultError(op))))
  }

  /** The state after a sequence of actions, in dispatch order. */
  function Run(s: State, actions: seq<Action>): State
    decreases |actions|
  {
    if actions == [] then s else Run(Reduce(s, actions[0]), actions[1..])
  }

  /** `clearError` empties the error slot and touches nothing else. */
  lemma ClearErrorEffect(s: State)
    ensures var r := Reduce(s, ClearError);
      r.error.None? && r.tasks == s.tasks && r.loading == s.loading && r.selected == s.selected
  {
  }

  /** `setSelectedTask` stores its payload, a task or none, and touches nothing else. */
  lemma SetSelectedEffect(s: State, choice: Option<Task>)
    ensures var r := Reduce(s, SetSelectedTask(choice));
      r.selected == choice && r.tasks == s.tasks && r.loading == s.loading && r.error == s.error
  {
  }

  /** Every fulfilled request stops loading and clears the error. */
  lemma FulfilledSettles(s: State, a: Action)
    requires IsFulfilled(a)
    ensures !Reduce(s, a).loading && Reduce(s, a).error.None?
  {
  }

  /** `clearTasks` empties the cache but leaves the loading flag alone. */
  lemma ClearTasksEffect(s: State)
    ensures var r := Reduce(s, ClearTasks);
      r.tasks == [] && r.selected.None? && r.error.None? && r.loading == s.loading
  {
  }

  /**
   * A socket `task_created` and a fulfilled create both put the task at the
   * front of the list and keep the selection; the socket event touches
   * nothing else, and the fulfilled create settles the request.
   */
  lemma PrependEffect(s: State, t: Task)
    ensures var r := Reduce(s, AddTaskFromSocket(t));
      && r.tasks == [t] + s.tasks && r.tasks[0] == t && r.tasks[1..] == s.tasks
      && r.selected == s.selected && r.loading == s.loading && r.error == s.error
    ensures var r := Reduce(s, CreateTaskFulfilled(t));
      && r.tasks == [t] + s.tasks && r.tasks[0] == t && r.tasks[1..] == s.tasks
      && r.selected == s.selected && !r.loading && r.error.None?
  {
  }

  /**
   * A socket `task_created` and a fulfilled create both prepend, also when a
   * task with that id is already cached: the list then holds the id twice.
   */
  lemma PrependDoesNotDeduplicate(s: State, t: Task)
    requires HasId(s.tasks, t.id)
    ensures Reduce(s, AddTaskFromSocket(t)).tasks == [t] + s.tasks
    ensures Reduce(s, CreateTaskFulfilled(t)).tasks == [t] + s.tasks
    ensures !DistinctIds(Reduce(s, AddTaskFromSocket(t)).tasks)
    ensures !DistinctIds(Reduce(s, CreateTaskFulfilled(t)).tasks)
  {
    var i :| 0 <= i < |s.tasks| && s.tasks[i].id == t.id;
    assert ([t] + s.tasks)[0].id == t.id;
    assert ([t] + s.tasks)[i + 1].id == t.id;
  }

  /**
   * A socket `task_updated` replaces the first cached task with the same id
   * and keeps every other position; with no such task nothing changes.
   */
  lemma SocketUpdateEffect(s: State, t: Task, k: int)
    requires IsFirstWithId(s.tasks, t.id, k)
    ensures var r := Reduce(s, UpdateTaskFromSocket(t));
      && |r.tasks| == |s.tasks| && r.tasks[k] == t
      && (forall i :: 0 <= i < |s.tasks| && i != k ==> r.tasks[i] == s.tasks[i])
      && r.selected == s.selected && r.error == s.error && r.loading == s.loading
  {
  }

  lemma SocketUpdateAbsent(s: State, t: Task)
    requires !HasId(s.tasks, t.id)
    ensures Reduce(s, UpdateTaskFromSocket(t)) == s
  {
  }

  /**
   * A socket `task_deleted` and a fulfilled delete leave no task with the
   * id; every other task survives, in order and as often as before. The
   * socket event touches nothing else; the fulfilled delete settles the
   * request and unselects the deleted task, keeping any other selection.
   */
  lemma RemovalEffect(s: State, id: string)
    ensures var r := Reduce(s, RemoveTaskFromSocket(id));
      && !HasId(r.tasks, id) && IsSubsequence(r.tasks, s.tasks) && r.selected == s.selected
      && (forall u: Task :: u.id != id ==> multiset(r.tasks)[u] == multiset(s.tasks)[u])
      && r.loading == s.loading && r.error == s.error
    ensures var r := Reduce(s, DeleteTaskFulfilled(id));
      && !HasId(r.tasks, id) && IsSubsequence(r.tasks, s.tasks)
      && (forall u: Task :: u.id != id ==> multiset(r.tasks)[u] == multiset(s.tasks)[u])
      && (s.selected.Some? && s.selected.value.id == id ==> r.selected.None?)
      && (s.selected.None? || s.selected.value.id != id ==> r.selected == s.selected)
      && !r.loading && r.error.None?
  {
    var kept := RemoveById(s.tasks, id);
    assert Reduce(s, RemoveTaskFromSocket(id)).tasks == kept;
    assert Reduce(s, DeleteTaskFulfilled(id)).tasks == kept;
    assert forall u: Task :: u.id != id ==> multiset(kept)[u] == multiset(s.tasks)[u] by {
      RemoveKeepsCounts(s.tasks, id);
    }
  }

  /** Every pending case starts loading, clears the error, and keeps the list and selection. */
  lemma PendingEffect(s: State, op: Op)
    ensures var r := Reduce(s, Pending(op));
      r.loading && r.error.None? && r.tasks == s.tasks && r.selected == s.selected
  {
  }

  /**
   * Every rejected case stops loading and records the payload, or the
   * request's own message when the payload is absent or empty; the list and
   * selection are kept.
   */
  lemma RejectedEffect(s: State, op: Op, payload: Option<string>)
    ensures var r := Reduce(s, Rejected(op, payload));
      && !r.loading && r.tasks == s.tasks && r.selected == s.selected
      && (payload.Some? && payload.value != "" ==> r.error == payload)
      && (payload.None? || payload.value == "" ==> r.error == Some(DefaultError(op)))
  {
  }

  /**
   * A fulfilled update replaces the first cached task with the same id, as
   * the socket update does, refreshes the selected task when it has that id,
   * and settles the request.
   */
  lemma UpdateFulfilledEffect(s: State, t: Task)
    ensures var r := Reduce(s, UpdateTaskFulfilled(t));
      && (s.selected.Some? && s.selected.value.id == t.id ==> r.selected == Some(t))
      && (s.selected.None? || s.selected.value.id != t.id ==> r.selected == s.selected)
      && r.tasks == Reduce(s, UpdateTaskFromSocket(t)).tasks
      && |r.tasks| == |s.tasks|
      && (forall k :: IsFirstWithId(s.tasks, t.id, k) ==>
            r.tasks[k] == t && forall i :: 0 <= i < |s.tasks| && i != k ==> r.tasks[i] == s.tasks[i])
      && (!HasId(s.tasks, t.id) ==> r.tasks == s.tasks)
      && !r.loading && r.error.None?
  {
    if HasId(s.tasks, t.id) {
      var k := FindIndex(s.tasks, t.id);
      assert IsFirstWithId(s.tasks, t.id, k);
    }
  }

  /**
   * A fetch-all replaces the list wholesale; a fetch-by-id only sets the
   * selection; both settle the request.
   */
  lemma FetchEffects(s: State, list: seq<Task>, t: Task)
    ensures var r := Reduce(s, FetchTasksFulfilled(list));
      r.tasks == list && r.selected == s.selected && !r.loading && r.error.None?
    ensures var r := Reduce(s, FetchTaskByIdFulfilled(t));
      r.tasks == s.tasks && r.selected == Some(t) && !r.loading && r.error.None?
  {
  }

  /** A subsequence of a list with distinct ids has distinct ids. */
  lemma {:induction false} SubsequenceKeepsDistinct(xs: seq<Task>, ys: seq<Task>)
    requires IsSubsequence(xs, ys) && DistinctIds(ys)
    ensures DistinctIds(xs)
    decreases |ys|
  {
    if xs != [] {
      assert ys != [];
      assert DistinctIds(ys[1..]) by {
        forall i, j | 0 <= i < j < |ys[1..]| ensures ys[1..][i].id != ys[1..][j].id {
          assert ys[1..][i] == ys[i + 1] && ys[1..][j] == ys[j + 1];
        }
      }
      if xs[0] == ys[0] && IsSubsequence(xs[1..], ys[1..]) {
        SubsequenceKeepsDistinct(xs[1..], ys[1..]);
        SubsequenceMembers(xs[1..], ys[1..]);
        forall j | 0 < j < |xs| ensures xs[0].id != xs[j].id {
          assert xs[1..][j - 1] == xs[j];
          var m :| 0 <= m < |ys[1..]| && ys[1..][m] == xs[j];
          assert ys[m + 1] == xs[j];
        }
      } else {
        SubsequenceKeepsDistinct(xs, ys[1..]);
      }
    }
  }

  /**
   * The actions that keep ids unique: every action except a prepend of an id
   * that is already cached and a fetch-all whose payload repeats an id.
   */
  predicate KeepsIdsUnique(s: State, a: Action) {
    && (a.AddTaskFromSocket? ==> !HasId(s.tasks, a.task.id))
    && (a.CreateTaskFulfilled? ==> !HasId(s.tasks, a.task.id))
    && (a.FetchTasksFulfilled? ==> DistinctIds(a.list))
  }

  lemma DistinctIdsPreserved(s: State, a: Action)
    requires DistinctIds(s.tasks) && KeepsIdsUnique(s, a)
    ensures DistinctIds(Reduce(s, a).tasks)
  {
    match a
    case RemoveTaskFromSocket(id) => SubsequenceKeepsDistinct(RemoveById(s.tasks, id), s.tasks);
    case DeleteTaskFulfilled(id) => SubsequenceKeepsDistinct(RemoveById(s.tasks, id), s.tasks);
    case AddTaskFromSocket(t) => PrependFresh(s.tasks, t);
    case CreateTaskFulfilled(t) => PrependFresh(s.tasks, t);
    case _ =>
  }

  lemma PrependFresh(ts: seq<Task>, t: Task)
    requires DistinctIds(ts) && !HasId(ts, t.id)
    ensures DistinctIds([t] + ts)
  {
    forall i, j | 0 <= i < j < |[t] + ts| ensures ([t] + ts)[i].id != ([t] + ts)[j].id {
      assert ([t] + ts)[j] == ts[j - 1];
      if i > 0 {
        assert ([t] + ts)[i] == ts[i - 1];
      }
    }
  }

  /** Removing an id twice is removing it once. */
  lemma {:induction false} RemoveIdempotent(ts: seq<Task>, id: string)
    ensures RemoveById(RemoveById(ts, id), id) == RemoveById(ts, id)
  {
    var r := RemoveById(ts, id);
    assert !HasId(r, id);
    RemoveAbsent(r, id);
  }

  /** Removing an id that is not cached changes nothing. */
  lemma {:induction false} RemoveAbsent(ts: seq<Task>, id: string)
    requires !HasId(ts, id)
    ensures RemoveById(ts, id) == ts
  {
    if ts != [] {
      assert ts[0].id != id;
      forall i | 0 <= i < |ts[1..]| ensures ts[1..][i].id != id {
        assert ts[1..][i] == ts[i + 1];
      }
      RemoveAbsent(ts[1..], id);
      assert [ts[0]] + ts[1..] == ts;
    }
  }

  /** Replaying the same socket update is harmless. */
  lemma ReplaceIdempotent(ts: seq<Task>, t: Task)
    ensures ReplaceFirst(ReplaceFirst(ts, t), t) == ReplaceFirst(ts, t)
  {
    var r := ReplaceFirst(ts, t);
    if HasId(ts, t.id) {
      var k := FindIndex(ts, t.id);
      assert IsFirstWithId(ts, t.id, k);
      assert IsFirstWithId(r, t.id, k);
      var k' := FindIndex(r, t.id);
      assert k' == k by {
        assert IsFirstWithId(r, t.id, k');
      }
    }
  }

  /**
   * A `task_created` followed by a `task_deleted` for the same id leaves the
   * list as deleting alone would.
   */
  lemma AddThenRemove(s: State, t: Task)
    ensures Reduce(Reduce(s, AddTaskFromSocket(t)), RemoveTaskFromSocket(t.id)).tasks
         == RemoveById(s.tasks, t.id)
  {
    var ts := [t] + s.tasks;
    assert ts[0] == t && ts[1..] == s.tasks;
  }

  /**
   * Over any run of actions that never grows the list (no fetch-all and no
   * prepend), every cached id was already cached at the start.
   */
  lemma {:induction false} ShrinkingRunKeepsIds(s: State, actions: seq<Action>)
    requires forall i :: 0 <= i < |actions| ==>
               !actions[i].FetchTasksFulfilled? && !actions[i].AddTaskFromSocket? &&
               !actions[i].CreateTaskFulfilled?
    ensures forall t :: t in Run(s, actions).tasks ==> HasId(s.tasks, t.id)
    decreases |actions|
  {
    if actions != [] {
      var s' := Reduce(s, actions[0]);
      assert forall t :: t in s'.tasks ==> HasId(s.tasks, t.id) by {
        StepKeepsIds(s, actions[0]);
      }
      ShrinkingRunKeepsIds(s', actions[1..]);
    }
  }

  lemma StepKeepsIds(s: State, a: Action)
    requires !a.FetchTasksFulfilled? && !a.AddTaskFromSocket? && !a.CreateTaskFulfilled?
    ensures forall t :: t in Reduce(s, a).tasks ==> HasId(s.tasks, t.id)
  {
    var r := Reduce(s, a);
    if a.ClearTasks? {
      assert r.tasks == [];
    } else {
      forall t | t in r.tasks ensures HasId(s.tasks, t.id) {
        var i :| 0 <= i < |r.tasks| && r.tasks[i] == t;
        if a.UpdateTaskFromSocket? || a.UpdateTaskFulfilled? {
          assert s.tasks[i].id == t.id;
        } else if a.RemoveTaskFromSocket? || a.DeleteTaskFulfilled? {
          SubsequenceMembers(r.tasks, s.tasks);
          var m :| 0 <= m < |s.tasks| && s.tasks[m] == r.tasks[i];
        } else {
          assert s.tasks[i] == t;
        }
      }
    }
  }
}
